=== FILE: README.md ===
# Phone repair shop backend: the data-access core in Dafny

This project models the data-access core of a small phone-repair-shop
backend (TypeScript on knex and SQLite). There are two layers:

- a generic table accessor, `Crud`, offering `insert`, `remove`,
  `removeNoPrimary`, `find`, `findOne`, `findOneNoPrimary`, `update` and
  `updateNoPrimary`;
- five entity modules that validate (a little) and delegate to it: `Client`,
  `Service`, `Phone`, `ServiceOrder` and `ServiceOrderHasService`.

## How the model is built

- **Rows.** A row is a map from column name to a stored value: `Null`, `Int`,
  `Text` or `Real`. Booleans are stored as the integers 0 and 1, as SQLite
  stores them.
- **Tables.** Each table's migration becomes a `Schema`. A schema lists the
  table's columns, whether it has an auto-increment `id`, its NOT NULL and
  UNIQUE columns, and its column defaults. `Admissible` states that a list of
  rows satisfies its schema.
- **Operations as functions.** The table state is its rows plus the
  AUTOINCREMENT sequence. Each accessor operation is a pure function from the
  old state to a `Step`: a promise outcome plus the new state. The outcome is
  `Resolved`, `Rejected(reason)` or `NeverSettles`.
- **Operations in place.** `Crud.Table` is a class whose methods perform each
  step in place. Each method is proved to equal its step function and to keep
  the table admissible.
- **Entity modules.** Each takes the table handle as a parameter. Each
  operation is proved equal to a specification function
  (`InsertSpec`, `RemoveSpec`), is the accessor step itself, or is the
  accessor step followed by `Acknowledge` (resolve `true`) or `Rethrown` (a
  rejection swallowed by `throw` inside `.catch`).
- **Store failures.** The database is not modelled as I/O. A store failure
  (disk, connection) is a `fault` flag. A statement that the store refuses is
  derived from the schema: an unknown column, a NULL in a NOT NULL column, or
  a duplicate in a UNIQUE column.
  - `insert` rejects with "could not insert".
  - Every other accessor operation throws inside `.catch`, so its promise
    never settles.

## Quirks the model reproduces

The model follows the code. Where the tests expect something else, the
code wins:

- **No early return on a failed check.** `Client.insert`, `Service.insert`
  and `Phone.insert` reject on a failed check but do not return, so the row is
  still written when the store accepts it (`Client.RejectedYetStored`,
  `Service.EmptyTypeYetStored`, `Phone.EmptyModelYetStored`).
- **ServiceOrder insert always fails under the migration.** The migration
  makes `beginDate` NOT NULL with no default, and `ServiceOrder.insert` never
  supplies it. Against the migrated table every insert is refused
  (`ServiceOrder.InsertAlwaysRefused`). The ServiceOrder tests expect a
  three-column table; it is modelled as `Migrations.TestedServiceOrderSchema`.
- **ServiceOrder remove is a hard delete.** `ServiceOrder.remove` deletes
  the row (`ServiceOrder.RemoveHardDeletes`), unlike `Service.remove`, which
  only sets `deleted`. The `canceled` column the migration declares is never
  set by any operation.
- **Service remove of a missing id.** It fails with a TypeError from
  `res[0].deleted = true`, which rejects the promise with that error.
- **No existence checks.** Nothing checks that the ids given to
  `ServiceOrder` or `ServiceOrderHasService` exist. The join-table tests
  expecting "invalid service id" and "invalid service order id", and the
  ServiceOrder tests expecting id -1, describe checks the code does not make.
- **Join-table failures never settle.** `ServiceOrderHasService` rethrows
  inside `.catch`, so even a refused insert leaves the promise pending.

## Model

| member | source | states |
|---|---|---|
| Schemas.RowFits | src/database/migrations/client.ts:5-8 | a row has exactly the table's columns, no NULL in a `notNullable()` column, and an integer primary key when the table has `increments("id")` |
| Schemas.Collide | src/database/migrations/client.ts:7-8 | two rows break a `unique()` constraint exactly when they hold the same non-NULL value in a unique column; several NULLs may coexist |
| Schemas.Admissible | src/database/migrations/client.ts:4-9 | a table's rows satisfy its declared constraints: every row fits and no two rows collide |
| Schemas.Fill | src/api/knex/crud.ts:110-111 | the row the store builds from an insert: exactly the table's columns, the generated id, each supplied column's value, and otherwise the column default or NULL |
| Schemas.AppendAdmissible | src/api/knex/crud.ts:110-117 | a new row keeps the table's constraints exactly when it fits the schema and shares no unique value with any existing row |
| Schemas.DistinctUnique | src/database/migrations/client.ts:5-8 | two different rows of an admissible table never share a non-NULL value in a UNIQUE column |
| Schemas.ReplaceAdmissible | src/api/knex/crud.ts:249-251 | replacing one row by a fitting row that clashes with no other row keeps the constraints |
| Schemas.ReplaceAgreeingAdmissible | src/api/service/service.ts:88-90 | replacing a row by one that keeps all its unique values keeps the constraints |
| Migrations.ClientSchema | src/database/migrations/client.ts:4-9 | the Client table: id, name, email and cpf all NOT NULL, email and cpf UNIQUE |
| Migrations.PhoneSchema | src/database/migrations/phone.ts:4-7 | the Phone table: id and a NOT NULL, UNIQUE model |
| Migrations.ServiceSchema | src/database/migrations/service.ts:4-9 | the Service table: UNIQUE type, price, and `deleted` defaulting to false |
| Migrations.ServiceOrderSchema | src/database/migrations/serviceOrder.ts:4-23 | the ServiceOrder table: NOT NULL idClient, idPhone, canceled (default false) and beginDate (no default); nullable endDate |
| Migrations.TestedServiceOrderSchema | src/api/serviceOrder/serviceOrder.test.ts:11-13 | the three-column ServiceOrder table the tests expect |
| Migrations.ServiceOrderHasServiceSchema | src/database/migrations/serviceOrderHasService.ts:4-19 | the join table: two NOT NULL id columns, no key and no unique constraint |
| Migrations.MigrationsWellFormed | src/database/migrations/serviceOrder.ts:4-22 | every migrated table's constraints are consistent: constrained columns exist, and the id is NOT NULL and UNIQUE |
| Crud.Matches | src/api/knex/crud.ts:159-160 | a row passes a chain of `where` equality filters exactly when every filtered column holds the given value |
| Crud.Select | src/api/knex/crud.ts:196-197 | a filtered query returns only matching stored rows, every matching row appears, and the result is no longer than the table |
| Crud.SelectCount | src/api/knex/crud.ts:196-197 | each matching row is returned as many times as it is stored, and a non-matching row never |
| Crud.Keep | src/api/knex/crud.ts:129-131 | the rows left after a delete are the non-matching ones; kept plus deleted rows are the table, counted with multiplicity |
| Crud.MaxId | src/api/knex/crud.ts:110-113 | bounds every stored key from above |
| Crud.Overwrite | src/api/knex/crud.ts:249-251 | an update merges the content into every matching row and leaves every other row as it was |
| Crud.NextId | src/api/knex/crud.ts:110-113 | AUTOINCREMENT: the new key exceeds both the sequence and every stored key |
| Crud.InsertStep | src/api/knex/crud.ts:105-119 | insert resolves the new id exactly when there is no failure, the columns are known and the new row keeps the constraints; the row is appended and the sequence set to its fresh id; otherwise it rejects with "could not insert" and leaves the table unchanged |
| Crud.KeepAdmissible | src/api/knex/crud.ts:127-139 | deleting rows keeps the table's constraints |
| Crud.DeleteStep | src/api/knex/crud.ts:127-139 | remove never rejects; it never settles exactly on a failure or an unknown column, changing nothing; otherwise it resolves the number of matching rows, and the remaining rows plus the matching ones are the old table, counted with multiplicity |
| Crud.UpdateStep | src/api/knex/crud.ts:243-259 | update never rejects; it never settles exactly on a failure, an unknown column, empty content or a constraint violation, changing nothing; otherwise it overwrites the matching rows, keeps the others and resolves the match count |
| Crud.SelectWhere | src/api/knex/crud.ts:194-205 | findOne never rejects, never settles exactly on a failure or an unknown column, and otherwise resolves the matching rows in table order with their multiplicity (absence is `[]`) |
| Crud.Acknowledge | src/api/client/client.ts:104-106 | resolving `true` in place of a count keeps the new state and the settledness, and passes rejections through |
| Crud.MatchesById | src/api/knex/crud.ts:197 | a row matches `where({id})` exactly when its id column holds that id |
| Crud.AtMostOneById | src/database/migrations/client.ts:5 | in a table keyed by id, at most one row matches an id |
| Crud.SelectById | src/api/knex/crud.ts:194-205 | findOne resolves `[the row]` when some row has the id and `[]` otherwise |
| Crud.SelectAt | src/api/knex/crud.ts:194-205 | in a table keyed by id, findOne of the id a row holds returns that row alone |
| Crud.FindOneAfterInsert | src/api/knex/crud.ts:105-119 | after a successful insert, findOne of the new id returns exactly the built row |
| Crud.FindOneAfterRemove | src/api/knex/crud.ts:127-139 | after a successful remove, findOne of that id returns `[]` |
| Crud.RemoveCount | src/api/knex/crud.ts:127-139 | remove by id resolves 1 when the id exists and 0 otherwise |
| Crud.OverwrittenIsUnion | src/api/knex/crud.ts:251 | an overwritten row is the old row with the content's columns replaced |
| Crud.FindOneAfterUpdate | src/api/knex/crud.ts:243-259 | after a successful update by id, findOne returns the old row merged with the content, and the count is 1 |
| Crud.OverwriteById | src/api/knex/crud.ts:249-251 | update by id touches only the row with that id |
| Crud.UpdateByIdResolves | src/api/knex/crud.ts:243-259 | update of an existing id with a fitting, clash-free result resolves 1 and replaces just that row |
| Crud.UpdateByIdClash | src/api/knex/crud.ts:255-257 | update giving a row another row's unique value never settles and changes nothing |
| Crud.InsertResolves | src/api/knex/crud.ts:110-113 | an insert whose row fits and clashes with nothing resolves the next id |
| Crud.Table.constructor | src/database/migrations/client.ts:4 | a new table is empty with sequence 0 |
| Crud.Table.Insert | src/api/knex/crud.ts:105-119 | performs `InsertStep` in place and keeps the table admissible |
| Crud.Table.Delete | src/api/knex/crud.ts:127-139 | performs `DeleteStep` in place for any filter |
| Crud.Table.Modify | src/api/knex/crud.ts:243-259 | performs `UpdateStep` in place for any filter |
| Crud.Table.Remove | src/api/knex/crud.ts:127-139 | `remove(table, id)`: `DeleteStep` on `where("id", id)` |
| Crud.Table.RemoveNoPrimary | src/api/knex/crud.ts:150-169 | `removeNoPrimary`: `DeleteStep` on the two-field filter |
| Crud.Table.Find | src/api/knex/crud.ts:176-186 | find resolves all stored rows, or never settles on a failure |
| Crud.Table.FindOne | src/api/knex/crud.ts:194-205 | findOne is `SelectWhere` on the id |
| Crud.Table.FindOneNoPrimary | src/api/knex/crud.ts:216-234 | findOneNoPrimary is `SelectWhere` on the two-field filter |
| Crud.Table.Update | src/api/knex/crud.ts:243-259 | `update(table, id, content)`: `UpdateStep` on the id, in place |
| Crud.Table.UpdateNoPrimary | src/api/knex/crud.ts:271-291 | `updateNoPrimary`: `UpdateStep` on the two-field filter, in place |
| Client.IsSpace | src/api/client/client.ts:77 | the characters of JavaScript's `\s` class, the ones `\S` in the email pattern does not match |
| Client.EmailPattern | src/api/client/client.ts:77 | `/\S+@\S+\.\S+/.test(s)`: some substring is non-spaces, `@`, non-spaces, `.`, non-spaces |
| Client.EmailPatternTight | src/api/client/client.ts:77 | `/\S+@\S+\.\S+/` matches exactly when some `@` has a non-space before it and a later `.` reached through non-spaces, with a non-space after the `.` |
| Client.NoAtNoEmail | src/api/client/client.ts:77 | a string without `@` is never an email |
| Client.SampleEmail | src/api/client/client.test.ts:28 | the test's address matches the pattern |
| Client.Validate | src/api/client/client.ts:78-84 | the first failing check in order (cpf size 11, email pattern, non-empty name) picks the message; none fails exactly when all three hold |
| Client.InsertSpec | src/api/client/client.ts:70-95 | insert never hangs; a failing check's message is the outcome whatever the store does; valid input gets exactly the store insert's outcome (its new id, or "could not insert" on a failure or a refused row); the store insert runs for every input, so the table is the store's result even when a check fails; it resolves only valid input and keeps the constraints |
| Client.FillClient | src/database/migrations/client.ts:4-9 | a client row is stored as exactly `{id, name, email, cpf}` and fits the table |
| Client.StoreAccepts | src/database/migrations/client.ts:7-8 | the store accepts any client whose email and cpf are unused |
| Client.InsertThenFindOne | src/api/client/client.test.ts:28-37 | valid input with an unused email and cpf resolves the new id, and findOne returns exactly that client |
| Client.RejectedYetStored | src/api/client/client.ts:78-87 | input failing a check is rejected with its message yet still stored |
| Client.DuplicateRejected | src/database/migrations/client.ts:7-8 | a duplicate email or cpf leaves the table unchanged and rejects valid input with "could not insert" |
| Client.RemoveThenFindOne | src/api/client/client.ts:97-111 | remove resolves true, and findOne of that id then returns `[]` |
| Client.DistinctClients | src/database/migrations/client.ts:5-8 | client rows that differ in id, email and cpf do not break a UNIQUE constraint |
| Client.UpdateAccepts | src/api/client/client.ts:139-157 | writing a name, email and cpf that no other client holds replaces just that client's row and resolves 1 |
| Client.UpdateUnchecked | src/api/client/client.ts:139-157 | update checks nothing: any unused email and cpf are written, resolving 1, and findOne returns them |
| Client.UpdateDuplicateNeverSettles | src/api/knex/crud.ts:255-257 | an update to another client's email or cpf never settles and changes nothing |
| Client.Insert | src/api/client/client.ts:70-95 | runs the checks, always calls the store, and equals `InsertSpec` |
| Client.Remove | src/api/client/client.ts:97-111 | the accessor's remove, resolving true |
| Client.Find | src/api/client/client.ts:113-124 | resolves every client, or never settles on a failure |
| Client.FindOne | src/api/client/client.ts:126-137 | the accessor's findOne by id |
| Client.Update | src/api/client/client.ts:139-157 | the accessor's update with `{name, email, cpf}`, resolving the count |
| Service.InsertSpec | src/api/service/service.ts:61-76 | insert never hangs; an empty type rejects with its message, a non-empty type gets exactly the store insert's outcome (its new id, or "could not insert" on a failure or a refused row), the store insert runs for every input, and the constraints are kept |
| Service.FillService | src/database/migrations/service.ts:4-9 | a new service is stored as `{id, type, price}` with `deleted` false (0) |
| Service.StoreAccepts | src/database/migrations/service.ts:6 | the store accepts any service of an unused type |
| Service.InsertThenFindOne | src/api/service/service.test.ts:27-31 | an unused non-empty type resolves the new id, and findOne returns it with `deleted` 0 |
| Service.EmptyTypeYetStored | src/api/service/service.ts:63-68 | an empty type is rejected with its message yet stored |
| Service.DuplicateType | src/api/service/service.test.ts:108 | a duplicate type leaves the table unchanged and rejects with "could not insert" |
| Service.RemoveSpec | src/api/service/service.ts:83-102 | remove rejects only with the TypeError and then changes nothing; a read failure never settles; success resolves true, keeps the row count and the constraints |
| Service.WriteBackDeleted | src/api/service/service.ts:88-90 | writing the found row back with `deleted` true replaces only that row and resolves 1 |
| Service.SoftDelete | src/api/service/service.ts:85-93 | removing an existing id keeps every row and sets only that row's `deleted` to 1, resolving true |
| Service.RemoveMissing | src/api/service/service.ts:87-88 | removing a missing id rejects with the TypeError and writes nothing |
| Service.UpdateKeepsDeleted | src/api/service/service.ts:146-162 | update rewrites type and price, keeps `deleted`, and resolves true |
| Service.Insert | src/api/service/service.ts:61-76 | equals `InsertSpec`, always calling the store |
| Service.Remove | src/api/service/service.ts:83-102 | findOne then update with `deleted` set; equals `RemoveSpec` |
| Service.Find | src/api/service/service.ts:108-119 | resolves every service, deleted ones included |
| Service.FindOne | src/api/service/service.ts:126-137 | the accessor's findOne by id |
| Service.Update | src/api/service/service.ts:146-162 | the accessor's update with `{type, price}`, resolving true |
| Phone.InsertSpec | src/api/phone/phone.ts:63-81 | insert never hangs, every rejection is "could not insert", only a non-empty model resolves; a non-empty model gets exactly the store insert's outcome; the store insert runs for every input, an empty model included; the constraints are kept |
| Phone.FillPhone | src/database/migrations/phone.ts:4-7 | a phone is stored as exactly `{id, model}` |
| Phone.StoreAccepts | src/database/migrations/phone.ts:6 | the store accepts any unused model |
| Phone.InsertThenFindOne | src/api/phone/phone.test.ts:23 | an unused non-empty model resolves the new id, and findOne returns `{id, model}` |
| Phone.EmptyModelYetStored | src/api/phone/phone.ts:68-73 | an empty model is rejected with "could not insert" yet stored |
| Phone.DuplicateModel | src/database/migrations/phone.ts:6 | a duplicate model rejects with "could not insert" and leaves the table unchanged |
| Phone.RemoveThenFindOne | src/api/phone/phone.ts:83-97 | remove resolves 1 when the id exists and 0 otherwise; findOne then returns `[]` |
| Phone.UpdateModel | src/api/phone/phone.test.ts:39 | update with an unused model rewrites only that phone's model and resolves 1 |
| Phone.UpdateDuplicateNeverSettles | src/api/phone/phone.ts:125-141 | update to another phone's model never settles and changes nothing |
| Phone.Insert | src/api/phone/phone.ts:63-81 | equals `InsertSpec`, always calling the store |
| Phone.Remove | src/api/phone/phone.ts:83-97 | the accessor's remove, resolving the count |
| Phone.Find | src/api/phone/phone.ts:99-110 | resolves every phone, or never settles on a failure |
| Phone.FindOne | src/api/phone/phone.ts:112-123 | the accessor's findOne by id |
| Phone.Update | src/api/phone/phone.ts:125-141 | the accessor's update with `{model}`, resolving the count |
| Phone.InsertFile | src/api/phone/phone.ts:143-148 | resolves true and takes no table: it stores nothing |
| ServiceOrder.InsertAlwaysRefused | src/database/migrations/serviceOrder.ts:21 | against the migrated table every insert rejects with "could not insert" and changes nothing |
| ServiceOrder.InsertThenFindOne | src/api/serviceOrder/serviceOrder.test.ts:36 | against the three-column table every insert resolves, whatever the ids, and findOne returns `{id, idClient, idPhone}` |
| ServiceOrder.RemoveHardDeletes | src/api/serviceOrder/serviceOrder.ts:78-87 | remove deletes the row, so the table loses exactly one row, and resolves true |
| ServiceOrder.UpdateSetsClientAndPhone | src/api/serviceOrder/serviceOrder.ts:125-139 | update sets only idClient and idPhone of that order, keeps the other rows, and resolves true |
| ServiceOrder.Insert | src/api/serviceOrder/serviceOrder.ts:59-71 | adopts the accessor's insert of `{idClient, idPhone}` |
| ServiceOrder.Remove | src/api/serviceOrder/serviceOrder.ts:78-87 | the accessor's remove, resolving true |
| ServiceOrder.Find | src/api/serviceOrder/serviceOrder.ts:93-101 | resolves every order, or never settles on a failure |
| ServiceOrder.FindOne | src/api/serviceOrder/serviceOrder.ts:108-116 | the accessor's findOne by id |
| ServiceOrder.Update | src/api/serviceOrder/serviceOrder.ts:125-139 | the accessor's update with `{idClient, idPhone}`, resolving true |
| ServiceOrderHasService.Rethrown | src/api/serviceOrderHasService/serviceOrderHasService.ts:84-86 | a rejection rethrown in `.catch` leaves the promise pending; resolutions and the state pass through |
| ServiceOrderHasService.InsertSpec | src/api/serviceOrderHasService/serviceOrderHasService.ts:70-88 | insert never rejects; a failure never settles and changes nothing; the constraints are kept |
| ServiceOrderHasService.MatchesLink | src/api/knex/crud.ts:224-226 | in the join table a row matches the pair filter exactly when it is that link |
| ServiceOrderHasService.InsertThenFindOne | src/api/serviceOrderHasService/ServiceOrderHasService.test.ts:26 | any link is stored: insert resolves the new rowid, appends the link, and findOne finds it |
| ServiceOrderHasService.DuplicateLinks | src/database/migrations/serviceOrderHasService.ts:4-19 | the pair is not a key: inserting a link twice adds two matching rows |
| ServiceOrderHasService.RemoveAllCopies | src/api/serviceOrderHasService/serviceOrderHasService.ts:96-116 | remove deletes every copy of the link, keeps every other row with its multiplicity, and resolves true; findOne then returns `[]` |
| ServiceOrderHasService.OverwriteLinks | src/api/knex/crud.ts:280-283 | overwriting with a link turns each copy of the old link into the new one, and the result keeps the constraints |
| ServiceOrderHasService.UpdateRelinks | src/api/serviceOrderHasService/serviceOrderHasService.ts:168-195 | update turns every copy of the old link into the new one in place, keeps the rest, and resolves true |
| ServiceOrderHasService.Insert | src/api/serviceOrderHasService/serviceOrderHasService.ts:70-88 | the accessor's insert with the rejection rethrown; equals `InsertSpec` |
| ServiceOrderHasService.Remove | src/api/serviceOrderHasService/serviceOrderHasService.ts:96-116 | `removeNoPrimary` on the pair, resolving true |
| ServiceOrderHasService.Find | src/api/serviceOrderHasService/serviceOrderHasService.ts:122-133 | resolves every link, or never settles on a failure |
| ServiceOrderHasService.FindOne | src/api/serviceOrderHasService/serviceOrderHasService.ts:141-158 | `findOneNoPrimary` on the pair |
| ServiceOrderHasService.Update | src/api/serviceOrderHasService/serviceOrderHasService.ts:168-195 | `updateNoPrimary` on the old pair with the new pair, resolving true |

## Left out

- The database engine is not modelled as code. Its effect is the schema predicate plus a `fault` flag for I/O failure. Transactions, connection handling and promise timing (what runs before the promise settles) are not modelled.
- `forceRollBack`: the accessor's signatures do not take it, so passing it has no effect; it is not modelled.
- Foreign keys are not modelled. SQLite leaves them unenforced unless enabled per connection, and the code relies on no FK error.
- Crud.InsertStep: a supplied `id` column is ignored (the generated one is used), because no caller supplies one.
- Crud.InsertStep: the resolved value is the new id itself, not the object `{ id }` the accessor wraps it in.
- Crud.InsertStep: for the join table, the resolved value stands for the hidden SQLite rowid but is drawn from the same never-reused counter as the AUTOINCREMENT tables. SQLite gives a table without AUTOINCREMENT the largest current rowid plus one, and so reuses freed rowids. On an empty join table, inserting (1,2), removing it and inserting (3,4) resolves 1 in SQLite and 2 in the model. Rowids are not stored in the modelled rows.
- Ids are unbounded integers: SQLite's 64-bit rowid ceiling and the 2^53 precision limit of JavaScript numbers are not modelled.
- Crud.Table.Find: the order of rows SQLite returns is taken to be insertion order.
- Client.Validate: `cpf.length` and the regular expression count UTF-16 code units; the model counts characters, which differs only outside the Basic Multilingual Plane.
- Service.RemoveSpec: the rejection is a TypeError object; the model represents it by its message as current V8 words it (older engines say "Cannot set property 'deleted' of undefined").
- Service price: the `decimal(9)` column's rounding is not modelled; the price is carried as an unconstrained real.
- Booleans: `deleted` and `canceled` are stored as 0 and 1; the JavaScript `true` written by `Service.remove` is stored as 1.
- `Service.findRankServiceByModel` and the reporting aggregates are not part of this model: they are raw SQL outside the accessor.
- The HTTP routes, the file upload configuration and seeds are not part of this model; `Phone.insertFile` only logs its argument, and the logging is left out.
- Store error values: the accessor's `throw new Error(...)` messages are never observed, because the throw happens inside `.catch` and the promise stays pending; the model records only that it never settles.
- Unhandled rejections: the error thrown inside `.catch` (in the accessor's remove, update and find, and in the join table's unawaited insert chain at src/api/serviceOrderHasService/serviceOrderHasService.ts:84-86) also rejects a promise nobody handles. No `unhandledRejection` handler is installed, so Node reports it, and from Node 15 on its default ends the process. The model records only that the caller's promise stays pending; this side effect on the process is not modelled.
- Rejections that cannot happen are not modelled separately. `ServiceOrder.remove` and `update` reject with `false` after a failed await, but every accessor failure they could await never settles, so the model shows no rejection there.

=== FILE: client.dfy ===
/** The Client entity: a new client is validated (cpf size, email shape,
    non-empty name) and then written through the accessor; remove, find,
    findOne and update delegate to the accessor. */
module Client {
  import opened Values
  import opened Schemas
  import opened Crud
  import Migrations

  /** JavaScript's `\s`, the characters that `\S` does not match. */
  predicate IsSpace(c: char) {
    || c == ' ' || c == '\t' || c == '\n' || c == '\r' || c == '\U{B}' || c == '\U{C}'
    || c == '\U{A0}' || c == '\U{1680}' || ('\U{2000}' <= c <= '\U{200A}')
    || c == '\U{2028}' || c == '\U{2029}' || c == '\U{202F}' || c == '\U{205F}'
    || c == '\U{3000}' || c == '\U{FEFF}'
  }

  predicate NonSpace(s: string, lo: int, hi: int)
    requires 0 <= lo <= hi <= |s|
  {
    forall k :: lo <= k < hi ==> !IsSpace(s[k])
  }

  /** `s[a..e]` matches `\S+@\S+\.\S+`, with the `@` at `p` and the `.` at `q`. */
  predicate MatchAt(s: string, a: int, p: int, q: int, e: int) {
    && 0 <= a < p && p + 1 < q && q + 1 < e <= |s|
    && NonSpace(s, a, p) && s[p] == '@' && NonSpace(s, p + 1, q)
    && s[q] == '.' && NonSpace(s, q + 1, e)
  }

  /** `/\S+@\S+\.\S+/.test(s)`: the pattern is not anchored, so a match
      anywhere in `s` is enough. */
  predicate EmailPattern(s: string) {
    exists a, p, q, e | 0 <= a <= p <= q <= e <= |s| :: MatchAt(s, a, p, q, e)
  }

  /** The shortest match: one character on each side. */
  predicate TightAt(s: string, p: int, q: int) {
    MatchAt(s, p - 1, p, q, q + 2)
  }

  /** The pattern matches exactly when some `@` has a non-space character
      before it, and a `.` after it, separated from it by at least one
      character, is reached through non-space characters only and followed
      by a non-space character. */
  lemma EmailPatternTight(s: string)
    ensures EmailPattern(s) <==> exists p, q | 0 <= p <= q <= |s| :: TightAt(s, p, q)
  {
    if EmailPattern(s) {
      var a, p, q, e :| 0 <= a <= p <= q <= e <= |s| && MatchAt(s, a, p, q, e);
      assert !IsSpace(s[p - 1]) && !IsSpace(s[q + 1]);
      assert TightAt(s, p, q);
    }
    if exists p, q | 0 <= p <= q <= |s| :: TightAt(s, p, q) {
      var p, q :| 0 <= p <= q <= |s| && TightAt(s, p, q);
      assert 0 <= p - 1 <= p <= q <= q + 2 <= |s|;
    }
  }

  /** A string without `@` never matches. */
  lemma NoAtNoEmail(s: string)
    requires forall k :: 0 <= k < |s| ==> s[k] != '@'
    ensures !EmailPattern(s)
  {
  }

  /** The address of the client insert test matches. */
  lemma SampleEmail()
    ensures EmailPattern("nelsinho@gmail.com")
  {
    var s := "nelsinho@gmail.com";
    assert TightAt(s, 8, 14);
    EmailPatternTight(s);
  }

  const InvalidCpfSize := "invalid cpf size"
  const InvalidEmail := "invalid email"
  const EmptyName := "client name must not be empty"

  /** The message of the first failing check, in the order the insert makes
      them: cpf size, then email shape, then name. */
  function Validate(name: string, email: string, cpf: string): (r: Option<string>)
    ensures r == Some(InvalidCpfSize) <==> |cpf| != 11
    ensures r == Some(InvalidEmail) <==> |cpf| == 11 && !EmailPattern(email)
    ensures r == Some(EmptyName) <==> |cpf| == 11 && EmailPattern(email) && |name| == 0
    ensures r == None <==> |cpf| == 11 && EmailPattern(email) && |name| > 0
  {
    if |cpf| != 11 then Some(InvalidCpfSize)
    else if !EmailPattern(email) then Some(InvalidEmail)
    else if |name| <= 0 then Some(EmptyName)
    else None
  }

  /** The object handed to the accessor: `{ name, email, cpf }`. */
  function Content(name: string, email: string, cpf: string): Row {
    map["name" := Text(name), "email" := Text(email), "cpf" := Text(cpf)]
  }

  /** `insert(name, email, cpf)`. A failed check rejects the promise but does
      not return, so the store insert still runs; its outcome only settles the
      promise when every check passed. */
  function InsertSpec(s: Schema, st: TableState, name: string, email: string, cpf: string, fault: bool)
    : (r: Step<int>)
    requires WellFormed(s) && Admissible(s, st.rows)
    ensures !r.out.NeverSettles?
    ensures r.out.Rejected? ==> r.out.reason in {InvalidCpfSize, InvalidEmail, EmptyName, CouldNotInsert}
    ensures Validate(name, email, cpf).Some? ==> r.out == Rejected(Validate(name, email, cpf).value)
    ensures r.out.Resolved? ==> Validate(name, email, cpf) == None
    ensures Validate(name, email, cpf) == None && r.out.Rejected? ==> r.out.reason == CouldNotInsert
    ensures r.after == InsertStep(s, st, Content(name, email, cpf), fault).after
    ensures Validate(name, email, cpf) == None ==> r == InsertStep(s, st, Content(name, email, cpf), fault)
    ensures Admissible(s, r.after.rows)
  {
    var stored := InsertStep(s, st, Content(name, email, cpf), fault);
    match Validate(name, email, cpf)
    case Some(m) => Step(Rejected(m), stored.after)
    case None => stored
  }

  /** No stored client holds this email or this cpf. */
  predicate Unused(rows: seq<Row>, email: string, cpf: string) {
    forall i :: 0 <= i < |rows| ==>
      && ("email" in rows[i] ==> rows[i]["email"] != Text(email))
      && ("cpf" in rows[i] ==> rows[i]["cpf"] != Text(cpf))
  }

  /** The row a client insert stores in the Client table. */
  function Stored(id: int, name: string, email: string, cpf: string): Row {
    map["id" := Int(id), "name" := Text(name), "email" := Text(email), "cpf" := Text(cpf)]
  }

  lemma FillClient(id: int, name: string, email: string, cpf: string)
    ensures Fill(Migrations.ClientSchema, Content(name, email, cpf), id) == Stored(id, name, email, cpf)
    ensures RowFits(Migrations.ClientSchema, Stored(id, name, email, cpf))
  {
    var f := Fill(Migrations.ClientSchema, Content(name, email, cpf), id);
    assert f.Keys == Stored(id, name, email, cpf).Keys;
  }

  /** Under the Client migration the store accepts a client whose email and
      cpf are both unused. */
  lemma StoreAccepts(st: TableState, name: string, email: string, cpf: string)
    requires Admissible(Migrations.ClientSchema, st.rows) && Unused(st.rows, email, cpf)
    ensures InsertStep(Migrations.ClientSchema, st, Content(name, email, cpf), false).out == Resolved(NextId(st))
  {
    var s, id := Migrations.ClientSchema, NextId(st);
    FillClient(id, name, email, cpf);
    var row := Stored(id, name, email, cpf);
    forall i | 0 <= i < |st.rows| ensures !Collide(s, st.rows[i], row) {
      assert IdOf(st.rows[i]) < id;
    }
    InsertResolves(s, st, Content(name, email, cpf));
  }

  /** Valid input with an unused email and cpf stores one row and resolves its
      id; `findOne(id)` then returns exactly `{id, name, email, cpf}`. */
  lemma InsertThenFindOne(st: TableState, name: string, email: string, cpf: string)
    requires Admissible(Migrations.ClientSchema, st.rows) && Unused(st.rows, email, cpf)
    requires Validate(name, email, cpf) == None
    ensures var step := InsertSpec(Migrations.ClientSchema, st, name, email, cpf, false);
      && step.out == Resolved(NextId(st))
      && SelectWhere(Migrations.ClientSchema, step.after, ById(NextId(st)), false)
         == Resolved([Stored(NextId(st), name, email, cpf)])
  {
    StoreAccepts(st, name, email, cpf);
    FillClient(NextId(st), name, email, cpf);
    FindOneAfterInsert(Migrations.ClientSchema, st, Content(name, email, cpf), false);
  }

  /** No early return: input that fails a check is still stored when the
      store accepts it, while the caller sees the validation message. */
  lemma RejectedYetStored(st: TableState, name: string, email: string, cpf: string)
    requires Admissible(Migrations.ClientSchema, st.rows) && Unused(st.rows, email, cpf)
    requires Validate(name, email, cpf).Some?
    ensures var step := InsertSpec(Migrations.ClientSchema, st, name, email, cpf, false);
      && step.out == Rejected(Validate(name, email, cpf).value)
      && step.after.rows == st.rows + [Stored(NextId(st), name, email, cpf)]
  {
    StoreAccepts(st, name, email, cpf);
    FillClient(NextId(st), name, email, cpf);
  }

  /** An email or cpf that a stored client already holds makes the store
      refuse the row: the table is unchanged and, when every check passed,
      the caller sees "could not insert". */
  lemma DuplicateRejected(st: TableState, k: nat, name: string, email: string, cpf: string, fault: bool)
    requires Admissible(Migrations.ClientSchema, st.rows) && k < |st.rows|
    requires st.rows[k]["email"] == Text(email) || st.rows[k]["cpf"] == Text(cpf)
    ensures var step := InsertSpec(Migrations.ClientSchema, st, name, email, cpf, fault);
      && step.after == st
      && (Validate(name, email, cpf) == None ==> step.out == Rejected(CouldNotInsert))
  {
    var s, row := Migrations.ClientSchema, Fill(Migrations.ClientSchema, Content(name, email, cpf), NextId(st));
    FillClient(NextId(st), name, email, cpf);
    assert st.rows[k] in st.rows;
    assert Collide(s, st.rows[k], row) by {
      if st.rows[k]["email"] == Text(email) {
        assert "email" in s.unique && row["email"] == Text(email);
      } else {
        assert "cpf" in s.unique && row["cpf"] == Text(cpf);
      }
    }
    AppendAdmissible(s, st.rows, row);
  }

  /** `remove(id)` deletes the client and resolves true; `findOne(id)` then
      returns `[]`. */
  lemma RemoveThenFindOne(s: Schema, st: TableState, id: int)
    requires WellFormed(s) && s.keyed && Admissible(s, st.rows)
    ensures var step := Acknowledge(DeleteStep(s, st, ById(id), false));
      && step.out == Resolved(true)
      && SelectWhere(s, step.after, ById(id), false) == Resolved([])
  {
    assert KnownFields(s, ById(id));
    FindOneAfterRemove(s, st, id, false);
  }

  /** Client rows that differ in id, email and cpf do not clash. */
  lemma DistinctClients(y: Row, x: Row)
    requires "id" in y && "email" in y && "cpf" in y && "id" in x && "email" in x && "cpf" in x
    requires y["id"] != x["id"] && y["email"] != x["email"] && y["cpf"] != x["cpf"]
    ensures !Collide(Migrations.ClientSchema, y, x)
  {
  }

  /** Writing a name, email and cpf that no other client holds replaces
      just that client's row and resolves 1. */
  lemma UpdateAccepts(st: TableState, k: nat, id: int, name: string, email: string, cpf: string)
    requires Admissible(Migrations.ClientSchema, st.rows)
    requires k < |st.rows| && st.rows[k]["id"] == Int(id)
    requires Unused(st.rows[..k] + st.rows[k + 1..], email, cpf)
    ensures st.rows[k] + Content(name, email, cpf) == Stored(id, name, email, cpf)
    ensures UpdateStep(Migrations.ClientSchema, st, ById(id), Content(name, email, cpf), false)
      == Step(Resolved(1), TableState(st.rows[k := Stored(id, name, email, cpf)], st.sequence))
  {
    var s, content := Migrations.ClientSchema, Content(name, email, cpf);
    var x := st.rows[k] + content;
    MatchesById(st.rows[k], id);
    assert x == Stored(id, name, email, cpf);
    FillClient(id, name, email, cpf);
    forall j | 0 <= j < |st.rows| && j != k ensures !Collide(s, st.rows[j], x) {
      var others := st.rows[..k] + st.rows[k + 1..];
      assert st.rows[j] == if j < k then others[j] else others[j - 1];
      assert st.rows[j] in st.rows && st.rows[k] in st.rows;
      DistinctUnique(s, st.rows, j, k, IdColumn);
      DistinctClients(st.rows[j], x);
    }
    assert content != map[] && content.Keys <= s.columns by {
      assert "name" in content;
    }
    UpdateByIdResolves(s, st, k, id, content);
  }

  /** `update(id, name, email, cpf)` checks nothing: any name, email and cpf
      that no other client holds are written to the row with that id, and
      `findOne(id)` then returns them. */
  lemma UpdateUnchecked(st: TableState, k: nat, id: int, name: string, email: string, cpf: string)
    requires Admissible(Migrations.ClientSchema, st.rows)
    requires k < |st.rows| && st.rows[k]["id"] == Int(id)
    requires Unused(st.rows[..k] + st.rows[k + 1..], email, cpf)
    ensures var step := UpdateStep(Migrations.ClientSchema, st, ById(id), Content(name, email, cpf), false);
      && step.out == Resolved(1)
      && SelectWhere(Migrations.ClientSchema, step.after, ById(id), false)
         == Resolved([Stored(id, name, email, cpf)])
  {
    var s, rows := Migrations.ClientSchema, st.rows[k := Stored(id, name, email, cpf)];
    UpdateAccepts(st, k, id, name, email, cpf);
    MatchesById(rows[k], id);
    SelectAt(s, rows, k, id);
    assert KnownFields(s, ById(id));
  }

  /** An update to an email or cpf another client holds breaks the UNIQUE
      constraint: the accessor throws inside `.catch`, the promise never
      settles and the table is unchanged. */
  lemma UpdateDuplicateNeverSettles(st: TableState, k: nat, j: nat, id: int, name: string, email: string, cpf: string, fault: bool)
    requires Admissible(Migrations.ClientSchema, st.rows)
    requires k < |st.rows| && j < |st.rows| && j != k && st.rows[k]["id"] == Int(id)
    requires st.rows[j]["email"] == Text(email) || st.rows[j]["cpf"] == Text(cpf)
    ensures UpdateStep(Migrations.ClientSchema, st, ById(id), Content(name, email, cpf), fault) == Step(NeverSettles, st)
  {
    var s, content := Migrations.ClientSchema, Content(name, email, cpf);
    var x := st.rows[k] + content;
    MatchesById(st.rows[k], id);
    assert Collide(s, st.rows[j], x) by {
      if st.rows[j]["email"] == Text(email) {
        assert "email" in s.unique && x["email"] == Text(email);
      } else {
        assert "cpf" in s.unique && x["cpf"] == Text(cpf);
      }
    }
    UpdateByIdClash(s, st, k, j, id, content, fault);
  }

  /** `insert(name, email, cpf, forceRollBack)` */
  method Insert(t: Table, name: string, email: string, cpf: string, fault: bool) returns (r: Outcome<int>)
    requires t.Valid()
    modifies t
    ensures t.Valid()
    ensures Step(r, t.State()) == InsertSpec(t.schema, old(t.State()), name, email, cpf, fault)
  {
    var failure := Validate(name, email, cpf);
    var stored := t.Insert(Content(name, email, cpf), fault);
    r := if failure.Some? then Rejected(failure.value) else stored;
  }

  /** `remove(id, forceRollBack)`: resolves true once the accessor resolves. */
  method Remove(t: Table, id: int, fault: bool) returns (r: Outcome<bool>)
    requires t.Valid()
    modifies t
    ensures t.Valid()
    ensures Step(r, t.State()) == Acknowledge(DeleteStep(t.schema, old(t.State()), ById(id), fault))
  {
    var n := t.Remove(id, fault);
    r := Acknowledge(Step(n, t.State())).out;
  }

  /** `find()` */
  method Find(t: Table, fault: bool) returns (r: Outcome<seq<Row>>)
    ensures r == if fault then NeverSettles else Resolved(t.rows)
  {
    r := t.Find(fault);
  }

  /** `findOne(id)` */
  method FindOne(t: Table, id: int, fault: bool) returns (r: Outcome<seq<Row>>)
    ensures r == SelectWhere(t.schema, t.State(), ById(id), fault)
  {
    r := t.FindOne(id, fault);
  }

  /** `update(id, name, email, cpf, forceRollBack)`: no validation; resolves
      the affected-row count. */
  method Update(t: Table, id: int, name: string, email: string, cpf: string, fault: bool) returns (r: Outcome<nat>)
    requires t.Valid()
    modifies t
    ensures t.Valid()
    ensures Step(r, t.State()) == UpdateStep(t.schema, old(t.State()), ById(id), Content(name, email, cpf), fault)
  {
    r := t.Update(id, Content(name, email, cpf), fault);
  }
}

=== FILE: crud.dfy ===
/** The generic table accessor: insert, delete, select and update on one
    table, each row selected by equality filters. A table's state is its
    rows and its AUTOINCREMENT sequence; every operation is first specified
    as a function from the old state to an outcome and a new state (a
    `Step`), and the `Table` class performs it in place. */
module Crud {
  import opened Values
  import opened Schemas

  /** One `where(field, value)` filter. */
  datatype Cond = Eq(field: string, value: Value)

  predicate Matches(r: Row, conds: seq<Cond>) {
    forall k :: 0 <= k < |conds| ==> conds[k].field in r && r[conds[k].field] == conds[k].value
  }

  /** Every filtered field is a column of the table (otherwise SQLite fails
      the statement with "no such column"). */
  predicate KnownFields(s: Schema, conds: seq<Cond>) {
    forall k :: 0 <= k < |conds| ==> conds[k].field in s.columns
  }

  /** `where("id", id)` */
  function ById(id: int): seq<Cond> {
    [Eq(IdColumn, Int(id))]
  }

  /** `where(field_1, id_1).andWhere(field_2, id_2)` */
  function ByPair(field1: string, id1: int, field2: string, id2: int): seq<Cond> {
    [Eq(field1, Int(id1)), Eq(field2, Int(id2))]
  }

  /** The matching rows, in table order. */
  function Select(rows: seq<Row>, conds: seq<Cond>): (r: seq<Row>)
    ensures |r| <= |rows|
    ensures forall x :: x in r <==> x in rows && Matches(x, conds)
  {
    if rows == [] then []
    else
      var init, last := rows[..|rows| - 1], rows[|rows| - 1];
      assert rows == init + [last];
      if Matches(last, conds) then Select(init, conds) + [last] else Select(init, conds)
  }

  /** A filtered query returns each matching row as many times as it is
      stored, and no other row. */
  lemma {:induction false} SelectCount(rows: seq<Row>, conds: seq<Cond>, x: Row)
    ensures multiset(Select(rows, conds))[x] == if Matches(x, conds) then multiset(rows)[x] else 0
  {
    if rows != [] {
      var init, last := rows[..|rows| - 1], rows[|rows| - 1];
      assert rows == init + [last];
      SelectCount(init, conds, x);
    }
  }

  /** The rows that survive a delete: the non-matching ones, in table order. */
  function Keep(rows: seq<Row>, conds: seq<Cond>): (r: seq<Row>)
    ensures |r| + |Select(rows, conds)| == |rows|
    ensures forall x :: x in r <==> x in rows && !Matches(x, conds)
    ensures multiset(r) + multiset(Select(rows, conds)) == multiset(rows)
  {
    if rows == [] then []
    else
      var init, last := rows[..|rows| - 1], rows[|rows| - 1];
      assert rows == init + [last];
      if Matches(last, conds) then Keep(init, conds) else Keep(init, conds) + [last]
  }

  /** The integer key of a row, 0 when it has none. */
  function IdOf(r: Row): int {
    if IdColumn in r && r[IdColumn].Int? then r[IdColumn].n else 0
  }

  /** The largest key in use (0 for no rows). */
  function MaxId(rows: seq<Row>): (m: int)
    ensures m >= 0
    ensures forall i :: 0 <= i < |rows| ==> IdOf(rows[i]) <= m
  {
    if rows == [] then 0
    else
      var init := rows[..|rows| - 1];
      var m := MaxId(init);
      assert forall i :: 0 <= i < |init| ==> rows[i] == init[i];
      if IdOf(rows[|rows| - 1]) > m then IdOf(rows[|rows| - 1]) else m
  }

  /** A row after `update(content)`: the supplied columns take the supplied
      values and every other column keeps its value. */
  predicate Overwritten(before: Row, content: Row, after: Row) {
    && after.Keys == before.Keys + content.Keys
    && (forall c :: c in content ==> after[c] == content[c])
    && (forall c :: c in before && c !in content ==> after[c] == before[c])
  }

  /** The rows after `update(content)` on the matching rows. */
  function Overwrite(rows: seq<Row>, conds: seq<Cond>, content: Row): (r: seq<Row>)
    ensures |r| == |rows|
    ensures forall i :: 0 <= i < |rows| && Matches(rows[i], conds) ==> Overwritten(rows[i], content, r[i])
    ensures forall i :: 0 <= i < |rows| && !Matches(rows[i], conds) ==> r[i] == rows[i]
  {
    seq(|rows|, i requires 0 <= i < |rows| => if Matches(rows[i], conds) then rows[i] + content else rows[i])
  }

  /** A table's state: its rows and its entry in `sqlite_sequence`. */
  datatype TableState = TableState(rows: seq<Row>, sequence: int)

  /** The outcome of one operation and the state it leaves. */
  datatype Step<+T> = Step(out: Outcome<T>, after: TableState)

  /** AUTOINCREMENT: one more than the largest key ever used, whether still
      present or recorded in the sequence. */
  function NextId(st: TableState): (id: int)
    ensures id > st.sequence
    ensures forall i :: 0 <= i < |st.rows| ==> IdOf(st.rows[i]) < id
  {
    (if st.sequence > MaxId(st.rows) then st.sequence else MaxId(st.rows)) + 1
  }

  const CouldNotInsert := "could not insert"

  /** `insert(table, content)`: the store builds the row and checks the
      table's constraints; on any failure the accessor rejects with
      "could not insert". */
  function InsertStep(s: Schema, st: TableState, content: Row, fault: bool): (r: Step<int>)
    requires WellFormed(s) && Admissible(s, st.rows)
    ensures !r.out.NeverSettles?
    ensures r.out.Rejected? ==> r.out.reason == CouldNotInsert && r.after == st
    ensures r.out.Resolved? <==>
      !fault && content.Keys <= s.columns && Admissible(s, st.rows + [Fill(s, content, NextId(st))])
    ensures r.out.Resolved? ==>
      && r.after.rows == st.rows + [Fill(s, content, r.out.value)]
      && r.after.sequence == r.out.value
      && (forall i :: 0 <= i < |st.rows| && IdColumn in st.rows[i] ==> st.rows[i][IdColumn] != Int(r.out.value))
    ensures Admissible(s, r.after.rows)
  {
    var id := NextId(st);
    var row := Fill(s, content, id);
    AppendAdmissible(s, st.rows, row);
    if fault || !(content.Keys <= s.columns) || !RowFits(s, row)
       || exists i :: 0 <= i < |st.rows| && Collide(s, st.rows[i], row)
    then Step(Rejected(CouldNotInsert), st)
    else
      assert forall i :: 0 <= i < |st.rows| && IdColumn in st.rows[i] ==> st.rows[i][IdColumn] != Int(id) by {
        forall i | 0 <= i < |st.rows| && IdColumn in st.rows[i] ensures st.rows[i][IdColumn] != Int(id) {
          assert IdOf(st.rows[i]) < id;
        }
      }
      Step(Resolved(id), TableState(st.rows + [row], id))
  }

  /** Deleting rows keeps the table's constraints. */
  lemma {:induction false} KeepAdmissible(s: Schema, rows: seq<Row>, conds: seq<Cond>)
    requires Admissible(s, rows)
    ensures Admissible(s, Keep(rows, conds))
  {
    if rows != [] {
      var init, last := rows[..|rows| - 1], rows[|rows| - 1];
      assert rows == init + [last];
      assert Admissible(s, init) by {
        assert forall i :: 0 <= i < |init| ==> init[i] == rows[i];
      }
      KeepAdmissible(s, init, conds);
      if !Matches(last, conds) {
        AppendAdmissible(s, init, last);
        forall y | y in Keep(init, conds) ensures !Collide(s, y, last) {
          assert y in init;
        }
        AppendAdmissible(s, Keep(init, conds), last);
      }
    }
  }

  /** `del()` on the filtered rows: resolves the number of rows deleted; a
      store failure throws inside `.catch`, so the promise never settles. */
  function DeleteStep(s: Schema, st: TableState, conds: seq<Cond>, fault: bool): (r: Step<nat>)
    requires Admissible(s, st.rows)
    ensures !r.out.Rejected?
    ensures r.out.NeverSettles? <==> fault || !KnownFields(s, conds)
    ensures r.out.NeverSettles? ==> r.after == st
    ensures r.out.Resolved? ==>
      && r.out.value == |Select(st.rows, conds)| == |st.rows| - |r.after.rows|
      && r.after.sequence == st.sequence
      && (forall x :: x in r.after.rows <==> x in st.rows && !Matches(x, conds))
      && multiset(r.after.rows) + multiset(Select(st.rows, conds)) == multiset(st.rows)
    ensures Admissible(s, r.after.rows)
  {
    if fault || !KnownFields(s, conds) then Step(NeverSettles, st)
    else
      KeepAdmissible(s, st.rows, conds);
      Step(Resolved(|Select(st.rows, conds)|), TableState(Keep(st.rows, conds), st.sequence))
  }

  /** `update(content)` on the filtered rows: resolves the number of rows
      matched. A store failure, a column the table lacks, empty content
      (knex refuses to build an update with nothing to set) or a result that
      breaks a constraint throws inside `.catch`: the promise never settles
      and nothing changes. */
  function UpdateStep(s: Schema, st: TableState, conds: seq<Cond>, content: Row, fault: bool): (r: Step<nat>)
    requires Admissible(s, st.rows)
    ensures !r.out.Rejected?
    ensures r.out.NeverSettles? <==>
      fault || !KnownFields(s, conds) || content == map[] || !(content.Keys <= s.columns)
      || !Admissible(s, Overwrite(st.rows, conds, content))
    ensures r.out.NeverSettles? ==> r.after == st
    ensures r.out.Resolved? ==>
      && r.out.value == |Select(st.rows, conds)|
      && r.after.sequence == st.sequence
      && |r.after.rows| == |st.rows|
      && (forall i :: 0 <= i < |st.rows| && Matches(st.rows[i], conds) ==>
            Overwritten(st.rows[i], content, r.after.rows[i]))
      && (forall i :: 0 <= i < |st.rows| && !Matches(st.rows[i], conds) ==>
            r.after.rows[i] == st.rows[i])
    ensures Admissible(s, r.after.rows)
  {
    var rows := Overwrite(st.rows, conds, content);
    if fault || !KnownFields(s, conds) || content == map[] || !(content.Keys <= s.columns) || !Admissible(s, rows)
    then Step(NeverSettles, st)
    else Step(Resolved(|Select(st.rows, conds)|), TableState(rows, st.sequence))
  }

  /** A filtered select: resolves exactly the matching rows (absence is an
      empty list, not an error); a store failure never settles. */
  function SelectWhere(s: Schema, st: TableState, conds: seq<Cond>, fault: bool): (r: Outcome<seq<Row>>)
    ensures !r.Rejected?
    ensures r.NeverSettles? <==> fault || !KnownFields(s, conds)
    ensures r.Resolved? ==> forall x :: x in r.value <==> x in st.rows && Matches(x, conds)
    ensures r.Resolved? ==> r.value == Select(st.rows, conds)
  {
    if fault || !KnownFields(s, conds) then NeverSettles else Resolved(Select(st.rows, conds))
  }

  /** What the entity modules do with an affected-row count they do not
      pass on: `.then(() => resolve(true))`. */
  function Acknowledge<T>(step: Step<T>): (r: Step<bool>)
    ensures r.after == step.after
    ensures r.out.Resolved? <==> step.out.Resolved?
    ensures r.out.Resolved? ==> r.out.value
    ensures r.out.NeverSettles? <==> step.out.NeverSettles?
    ensures step.out.Rejected? ==> r.out == Rejected(step.out.reason)
  {
    match step.out
    case Resolved(_) => Step(Resolved(true), step.after)
    case Rejected(m) => Step(Rejected(m), step.after)
    case NeverSettles => Step(NeverSettles, step.after)
  }

  lemma MatchesById(r: Row, id: int)
    ensures Matches(r, ById(id)) <==> IdColumn in r && r[IdColumn] == Int(id)
  {
    assert ById(id)[0] == Eq(IdColumn, Int(id));
  }

  /** Some row of the table carries the id. */
  predicate HasId(rows: seq<Row>, id: int) {
    exists i :: 0 <= i < |rows| && IdColumn in rows[i] && rows[i][IdColumn] == Int(id)
  }

  /** In a keyed table at most one row carries a given id. */
  lemma {:induction false} AtMostOneById(s: Schema, rows: seq<Row>, id: int)
    requires WellFormed(s) && s.keyed && Admissible(s, rows)
    ensures |Select(rows, ById(id))| <= 1
  {
    if rows != [] {
      var init, last := rows[..|rows| - 1], rows[|rows| - 1];
      assert rows == init + [last];
      assert Admissible(s, init) by {
        assert forall i :: 0 <= i < |init| ==> init[i] == rows[i];
      }
      AtMostOneById(s, init, id);
      if Matches(last, ById(id)) {
        MatchesById(last, id);
        forall y | y in init ensures !Matches(y, ById(id)) {
          var i :| 0 <= i < |init| && init[i] == y;
          assert rows[i] == y;
          assert !Collide(s, rows[i], rows[|rows| - 1]);
          assert IdColumn in s.unique;
          MatchesById(y, id);
        }
        NoneSelected(Select(init, ById(id)));
      }
    }
  }

  /** A sequence of at most one element that holds `x` is `[x]`. */
  lemma Singleton(r: seq<Row>, x: Row)
    requires |r| <= 1 && x in r
    ensures r == [x]
  {
  }

  /** A sequence in which nothing is an element is empty. */
  lemma NoneSelected(r: seq<Row>)
    ensures (forall x :: x !in r) <==> r == []
  {
    if r != [] {
      assert r[0] in r;
    }
  }

  /** The rows a filter selects in a keyed table: the row with the id, or none. */
  lemma SelectById(s: Schema, rows: seq<Row>, id: int)
    requires WellFormed(s) && s.keyed && Admissible(s, rows)
    ensures HasId(rows, id) ==> exists i :: 0 <= i < |rows| && Select(rows, ById(id)) == [rows[i]]
    ensures !HasId(rows, id) ==> Select(rows, ById(id)) == []
  {
    var sel := Select(rows, ById(id));
    AtMostOneById(s, rows, id);
    if HasId(rows, id) {
      var i :| 0 <= i < |rows| && IdColumn in rows[i] && rows[i][IdColumn] == Int(id);
      MatchesById(rows[i], id);
      Singleton(sel, rows[i]);
    } else {
      forall x | x in sel ensures false {
        var i :| 0 <= i < |rows| && rows[i] == x;
        MatchesById(x, id);
      }
      NoneSelected(sel);
    }
  }

  /** After an insert into a keyed table resolves `id`, `findOne(id)`
      returns exactly the stored row. */
  lemma FindOneAfterInsert(s: Schema, st: TableState, content: Row, fault: bool)
    requires WellFormed(s) && s.keyed && Admissible(s, st.rows)
    requires InsertStep(s, st, content, fault).out.Resolved?
    ensures var step := InsertStep(s, st, content, fault);
      SelectWhere(s, step.after, ById(step.out.value), false) == Resolved([Fill(s, content, step.out.value)])
  {
    var step := InsertStep(s, st, content, fault);
    var id, row := step.out.value, Fill(s, content, step.out.value);
    MatchesById(row, id);
    assert step.after.rows[|st.rows|] == row;
    AtMostOneById(s, step.after.rows, id);
    Singleton(Select(step.after.rows, ById(id)), row);
  }

  /** After `remove(id)` resolves, `findOne(id)` returns `[]`. */
  lemma FindOneAfterRemove(s: Schema, st: TableState, id: int, fault: bool)
    requires Admissible(s, st.rows)
    requires DeleteStep(s, st, ById(id), fault).out.Resolved?
    ensures SelectWhere(s, DeleteStep(s, st, ById(id), fault).after, ById(id), false) == Resolved([])
  {
    var after := DeleteStep(s, st, ById(id), fault).after;
    NoneSelected(Select(after.rows, ById(id)));
  }

  /** In a keyed table `remove(id)` deletes the row with that id if there is
      one: it resolves 1 when a row carries the id and 0 otherwise. */
  lemma RemoveCount(s: Schema, st: TableState, id: int)
    requires WellFormed(s) && s.keyed && Admissible(s, st.rows)
    ensures HasId(st.rows, id) ==> DeleteStep(s, st, ById(id), false).out == Resolved(1)
    ensures !HasId(st.rows, id) ==> DeleteStep(s, st, ById(id), false).out == Resolved(0)
  {
    SelectById(s, st.rows, id);
  }

  lemma OverwrittenIsUnion(before: Row, content: Row, after: Row)
    requires Overwritten(before, content, after)
    ensures after == before + content
  {
  }

  /** After `update(id, content)` resolves on the row at position `k`, and
      the content leaves the key alone, `findOne(id)` returns that row with
      the supplied columns replaced and the others unchanged. */
  lemma FindOneAfterUpdate(s: Schema, st: TableState, k: nat, id: int, content: Row, fault: bool)
    requires WellFormed(s) && s.keyed && Admissible(s, st.rows)
    requires k < |st.rows| && Matches(st.rows[k], ById(id))
    requires IdColumn !in content
    requires UpdateStep(s, st, ById(id), content, fault).out.Resolved?
    ensures var step := UpdateStep(s, st, ById(id), content, fault);
      && step.out == Resolved(1)
      && SelectWhere(s, step.after, ById(id), false) == Resolved([st.rows[k] + content])
  {
    var step := UpdateStep(s, st, ById(id), content, fault);
    var after := step.after.rows;
    OverwrittenIsUnion(st.rows[k], content, after[k]);
    assert Matches(after[k], ById(id));
    AtMostOneById(s, st.rows, id);
    Singleton(Select(st.rows, ById(id)), st.rows[k]);
    AtMostOneById(s, after, id);
    Singleton(Select(after, ById(id)), after[k]);
  }

  /** In a keyed table, selecting the id that row `k` holds returns that row
      alone. */
  lemma SelectAt(s: Schema, rows: seq<Row>, k: nat, id: int)
    requires WellFormed(s) && s.keyed && Admissible(s, rows)
    requires k < |rows| && Matches(rows[k], ById(id))
    ensures Select(rows, ById(id)) == [rows[k]]
  {
    AtMostOneById(s, rows, id);
    Singleton(Select(rows, ById(id)), rows[k]);
  }

  /** In a keyed table, `update(id, content)` touches only the row with that
      id. */
  lemma OverwriteById(s: Schema, rows: seq<Row>, k: nat, id: int, content: Row)
    requires WellFormed(s) && s.keyed && Admissible(s, rows)
    requires k < |rows| && Matches(rows[k], ById(id))
    ensures Overwrite(rows, ById(id), content) == rows[k := rows[k] + content]
    ensures Select(rows, ById(id)) == [rows[k]]
  {
    var r := Overwrite(rows, ById(id), content);
    MatchesById(rows[k], id);
    forall j | 0 <= j < |rows| && j != k ensures !Matches(rows[j], ById(id)) {
      MatchesById(rows[j], id);
      assert IdColumn in s.unique;
      if j < k {
        assert !Collide(s, rows[j], rows[k]);
      } else {
        assert !Collide(s, rows[k], rows[j]);
      }
    }
    OverwrittenIsUnion(rows[k], content, r[k]);
    AtMostOneById(s, rows, id);
    Singleton(Select(rows, ById(id)), rows[k]);
  }

  /** `update(id, content)` on an existing row resolves 1 and replaces just
      that row when the updated row fits and clashes with no other row. */
  lemma UpdateByIdResolves(s: Schema, st: TableState, k: nat, id: int, content: Row)
    requires WellFormed(s) && s.keyed && Admissible(s, st.rows)
    requires k < |st.rows| && Matches(st.rows[k], ById(id))
    requires content != map[] && content.Keys <= s.columns
    requires RowFits(s, st.rows[k] + content)
    requires forall j :: 0 <= j < |st.rows| && j != k ==> !Collide(s, st.rows[j], st.rows[k] + content)
    ensures UpdateStep(s, st, ById(id), content, false)
      == Step(Resolved(1), TableState(st.rows[k := st.rows[k] + content], st.sequence))
  {
    OverwriteById(s, st.rows, k, id, content);
    ReplaceAdmissible(s, st.rows, k, st.rows[k] + content);
    assert KnownFields(s, ById(id));
  }

  /** `update(id, content)` that would give the row a unique value another
      row holds breaks the constraint: the promise never settles and the
      table is unchanged. */
  lemma UpdateByIdClash(s: Schema, st: TableState, k: nat, j: nat, id: int, content: Row, fault: bool)
    requires WellFormed(s) && s.keyed && Admissible(s, st.rows)
    requires k < |st.rows| && j < |st.rows| && j != k && Matches(st.rows[k], ById(id))
    requires Collide(s, st.rows[j], st.rows[k] + content)
    ensures UpdateStep(s, st, ById(id), content, fault) == Step(NeverSettles, st)
  {
    var r := Overwrite(st.rows, ById(id), content);
    OverwriteById(s, st.rows, k, id, content);
    assert r[k] == st.rows[k] + content && r[j] == st.rows[j];
    if j < k {
      assert Collide(s, r[j], r[k]);
    } else {
      var c :| c in s.unique && c in r[j] && c in r[k] && r[j][c] != Null && r[j][c] == r[k][c];
      assert Collide(s, r[k], r[j]);
    }
  }

  /** An insert whose row fits and clashes with no existing row resolves. */
  lemma InsertResolves(s: Schema, st: TableState, content: Row)
    requires WellFormed(s) && Admissible(s, st.rows)
    requires content.Keys <= s.columns
    requires RowFits(s, Fill(s, content, NextId(st)))
    requires forall i :: 0 <= i < |st.rows| ==> !Collide(s, st.rows[i], Fill(s, content, NextId(st)))
    ensures InsertStep(s, st, content, false).out == Resolved(NextId(st))
  {
    AppendAdmissible(s, st.rows, Fill(s, content, NextId(st)));
  }

  /** One table of the store, updated in place. */
  class Table {
    const schema: Schema
    var rows: seq<Row>
    var sequence: int

    ghost predicate Valid()
      reads this
    {
      WellFormed(schema) && Admissible(schema, rows)
    }

    function State(): TableState
      reads this
    {
      TableState(rows, sequence)
    }

    constructor (schema: Schema)
      requires WellFormed(schema)
      ensures Valid() && this.schema == schema
      ensures State() == TableState([], 0)
    {
      this.schema := schema;
      rows, sequence := [], 0;
    }

    method Insert(content: Row, fault: bool) returns (r: Outcome<int>)
      requires Valid()
      modifies this
      ensures Valid()
      ensures Step(r, State()) == InsertStep(schema, old(State()), content, fault)
    {
      var id := NextId(State());
      var row := Fill(schema, content, id);
      if fault || !(content.Keys <= schema.columns) || !RowFits(schema, row)
         || exists i :: 0 <= i < |rows| && Collide(schema, rows[i], row)
      {
        r := Rejected(CouldNotInsert);
      } else {
        rows, sequence := rows + [row], id;
        r := Resolved(id);
      }
    }

    method Delete(conds: seq<Cond>, fault: bool) returns (r: Outcome<nat>)
      requires Valid()
      modifies this
      ensures Valid()
      ensures Step(r, State()) == DeleteStep(schema, old(State()), conds, fault)
    {
      if fault || !KnownFields(schema, conds) {
        r := NeverSettles;
      } else {
        KeepAdmissible(schema, rows, conds);
        r := Resolved(|Select(rows, conds)|);
        rows := Keep(rows, conds);
      }
    }

    method Modify(conds: seq<Cond>, content: Row, fault: bool) returns (r: Outcome<nat>)
      requires Valid()
      modifies this
      ensures Valid()
      ensures Step(r, State()) == UpdateStep(schema, old(State()), conds, content, fault)
    {
      var updated := Overwrite(rows, conds, content);
      if fault || !KnownFields(schema, conds) || content == map[] || !(content.Keys <= schema.columns)
         || !Admissible(schema, updated)
      {
        r := NeverSettles;
      } else {
        r := Resolved(|Select(rows, conds)|);
        rows := updated;
      }
    }

    /** `remove(table, id)` */
    method Remove(id: int, fault: bool) returns (r: Outcome<nat>)
      requires Valid()
      modifies this
      ensures Valid()
      ensures Step(r, State()) == DeleteStep(schema, old(State()), ById(id), fault)
    {
      r := Delete(ById(id), fault);
    }

    /** `removeNoPrimary(table, id_1, id_2, field_1, field_2)` */
    method RemoveNoPrimary(id1: int, id2: int, field1: string, field2: string, fault: bool) returns (r: Outcome<nat>)
      requires Valid()
      modifies this
      ensures Valid()
      ensures Step(r, State()) == DeleteStep(schema, old(State()), ByPair(field1, id1, field2, id2), fault)
    {
      r := Delete(ByPair(field1, id1, field2, id2), fault);
    }

    /** `find(table)`: every row, or never settles on a store failure. */
    method Find(fault: bool) returns (r: Outcome<seq<Row>>)
      ensures r == if fault then NeverSettles else Resolved(rows)
    {
      r := if fault then NeverSettles else Resolved(rows);
    }

    /** `findOne(table, id)` */
    method FindOne(id: int, fault: bool) returns (r: Outcome<seq<Row>>)
      ensures r == SelectWhere(schema, State(), ById(id), fault)
    {
      r := SelectWhere(schema, State(), ById(id), fault);
    }

    /** `findOneNoPrimary(table, id_1, id_2, field_1, field_2)` */
    method FindOneNoPrimary(id1: int, id2: int, field1: string, field2: string, fault: bool)
      returns (r: Outcome<seq<Row>>)
      ensures r == SelectWhere(schema, State(), ByPair(field1, id1, field2, id2), fault)
    {
      r := SelectWhere(schema, State(), ByPair(field1, id1, field2, id2), fault);
    }

    /** `update(table, id, content)` */
    method Update(id: int, content: Row, fault: bool) returns (r: Outcome<nat>)
      requires Valid()
      modifies this
      ensures Valid()
      ensures Step(r, State()) == UpdateStep(schema, old(State()), ById(id), content, fault)
    {
      r := Modify(ById(id), content, fault);
    }

    /** `updateNoPrimary(table, id_1, id_2, field_1, field_2, content)` */
    method UpdateNoPrimary(id1: int, id2: int, field1: string, field2: string, content: Row, fault: bool)
      returns (r: Outcome<nat>)
      requires Valid()
      modifies this
      ensures Valid()
      ensures Step(r, State()) == UpdateStep(schema, old(State()), ByPair(field1, id1, field2, id2), content, fault)
    {
      r := Modify(ByPair(field1, id1, field2, id2), content, fault);
    }
  }
}

=== FILE: migrations.dfy ===
/** The five tables as the migrations create them, written as constraint
    sets. */
module Migrations {
  import opened Values
  import opened Schemas

  /** Client: unique email and cpf, every column NOT NULL. */
  const ClientSchema := Schema(
    {"id", "name", "email", "cpf"}, true,
    {"id", "name", "email", "cpf"}, {"id", "email", "cpf"}, map[])

  /** Phone: unique, NOT NULL model. */
  const PhoneSchema := Schema({"id", "model"}, true, {"id", "model"}, {"id", "model"}, map[])

  /** Service: unique type; `deleted` defaults to false. */
  const ServiceSchema := Schema(
    {"id", "type", "price", "deleted"}, true,
    {"id", "type", "price", "deleted"}, {"id", "type"}, map["deleted" := StoredFalse])

  /** ServiceOrder: `canceled` defaults to false; `beginDate` is NOT NULL
      and has no default; `endDate` may be NULL. */
  const ServiceOrderSchema := Schema(
    {"id", "idClient", "idPhone", "canceled", "beginDate", "endDate"}, true,
    {"id", "idClient", "idPhone", "canceled", "beginDate"}, {"id"}, map["canceled" := StoredFalse])

  /** The three-column ServiceOrder table that the ServiceOrder tests
      expect (`id`, `idClient`, `idPhone`), which the migration does not
      create. */
  const TestedServiceOrderSchema := Schema(
    {"id", "idClient", "idPhone"}, true, {"id", "idClient", "idPhone"}, {"id"}, map[])

  /** ServiceOrderHasService: two NOT NULL integer columns, no primary key
      and no unique constraint on the pair. */
  const ServiceOrderHasServiceSchema := Schema(
    {"idServiceOrder", "idService"}, false, {"idServiceOrder", "idService"}, {}, map[])

  lemma MigrationsWellFormed()
    ensures WellFormed(ClientSchema) && WellFormed(PhoneSchema) && WellFormed(ServiceSchema)
    ensures WellFormed(ServiceOrderSchema) && WellFormed(TestedServiceOrderSchema)
    ensures WellFormed(ServiceOrderHasServiceSchema)
  {
  }
}

=== FILE: phone.dfy ===
/** The Phone entity: insert after an empty-model check, and remove, find,
    findOne and update passed straight through to the accessor. */
module Phone {
  import opened Values
  import opened Schemas
  import opened Crud
  import Migrations

  /** The object handed to the accessor: `{ model }`. */
  function Content(model: string): Row {
    map["model" := Text(model)]
  }

  /** `insert(model)`. An empty model rejects with the same message the
      accessor uses, but does not return, so the store insert still runs. */
  function InsertSpec(s: Schema, st: TableState, model: string, fault: bool): (r: Step<int>)
    requires WellFormed(s) && Admissible(s, st.rows)
    ensures !r.out.NeverSettles?
    ensures r.out.Rejected? ==> r.out.reason == CouldNotInsert
    ensures r.out.Resolved? ==> |model| > 0
    ensures r.after == InsertStep(s, st, Content(model), fault).after
    ensures |model| > 0 ==> r == InsertStep(s, st, Content(model), fault)
    ensures Admissible(s, r.after.rows)
  {
    var stored := InsertStep(s, st, Content(model), fault);
    if |model| <= 0 then Step(Rejected(CouldNotInsert), stored.after) else stored
  }

  /** The row a new phone is stored as. */
  function Stored(id: int, model: string): Row {
    map["id" := Int(id), "model" := Text(model)]
  }

  lemma FillPhone(id: int, model: string)
    ensures Fill(Migrations.PhoneSchema, Content(model), id) == Stored(id, model)
    ensures RowFits(Migrations.PhoneSchema, Stored(id, model))
  {
    var f := Fill(Migrations.PhoneSchema, Content(model), id);
    assert f.Keys == Stored(id, model).Keys;
  }

  /** No stored phone has this model. */
  predicate Unused(rows: seq<Row>, model: string) {
    forall i :: 0 <= i < |rows| ==> "model" in rows[i] ==> rows[i]["model"] != Text(model)
  }

  lemma StoreAccepts(st: TableState, model: string)
    requires Admissible(Migrations.PhoneSchema, st.rows) && Unused(st.rows, model)
    ensures InsertStep(Migrations.PhoneSchema, st, Content(model), false).out == Resolved(NextId(st))
  {
    var s, id := Migrations.PhoneSchema, NextId(st);
    FillPhone(id, model);
    forall i | 0 <= i < |st.rows| ensures !Collide(s, st.rows[i], Stored(id, model)) {
      assert IdOf(st.rows[i]) < id;
    }
    InsertResolves(s, st, Content(model));
  }

  /** A new, non-empty model resolves the new id, and `findOne` then returns
      exactly `{id, model}`. */
  lemma InsertThenFindOne(st: TableState, model: string)
    requires Admissible(Migrations.PhoneSchema, st.rows) && Unused(st.rows, model)
    requires |model| > 0
    ensures var step := InsertSpec(Migrations.PhoneSchema, st, model, false);
      && step.out == Resolved(NextId(st))
      && SelectWhere(Migrations.PhoneSchema, step.after, ById(NextId(st)), false)
         == Resolved([Stored(NextId(st), model)])
  {
    StoreAccepts(st, model);
    FillPhone(NextId(st), model);
    FindOneAfterInsert(Migrations.PhoneSchema, st, Content(model), false);
  }

  /** No early return: the empty model is rejected, yet, when no phone has
      the empty model, the row is stored all the same. */
  lemma EmptyModelYetStored(st: TableState)
    requires Admissible(Migrations.PhoneSchema, st.rows) && Unused(st.rows, "")
    ensures var step := InsertSpec(Migrations.PhoneSchema, st, "", false);
      && step.out == Rejected(CouldNotInsert)
      && step.after.rows == st.rows + [Stored(NextId(st), "")]
  {
    StoreAccepts(st, "");
    FillPhone(NextId(st), "");
  }

  /** A model that a stored phone already has is refused: "could not
      insert", and the table is unchanged. */
  lemma DuplicateModel(st: TableState, k: nat, model: string, fault: bool)
    requires Admissible(Migrations.PhoneSchema, st.rows) && k < |st.rows|
    requires st.rows[k]["model"] == Text(model)
    ensures InsertSpec(Migrations.PhoneSchema, st, model, fault) == Step(Rejected(CouldNotInsert), st)
  {
    var s, row := Migrations.PhoneSchema, Stored(NextId(st), model);
    FillPhone(NextId(st), model);
    assert st.rows[k] in st.rows;
    assert Collide(s, st.rows[k], row) by {
      assert "model" in s.unique && row["model"] == Text(model);
    }
    AppendAdmissible(s, st.rows, row);
  }

  /** `remove(id)` resolves the number of rows deleted: 1 when a phone has
      the id and 0 otherwise; `findOne(id)` then returns `[]`. */
  lemma RemoveThenFindOne(st: TableState, id: int)
    requires Admissible(Migrations.PhoneSchema, st.rows)
    ensures var step := DeleteStep(Migrations.PhoneSchema, st, ById(id), false);
      && step.out == Resolved(if HasId(st.rows, id) then 1 else 0)
      && SelectWhere(Migrations.PhoneSchema, step.after, ById(id), false) == Resolved([])
  {
    RemoveCount(Migrations.PhoneSchema, st, id);
    FindOneAfterRemove(Migrations.PhoneSchema, st, id, false);
  }

  /** `update(id, model)` with a model no other phone has rewrites only the
      model of that phone and resolves 1. */
  lemma UpdateModel(st: TableState, k: nat, id: int, model: string)
    requires Admissible(Migrations.PhoneSchema, st.rows)
    requires k < |st.rows| && st.rows[k]["id"] == Int(id)
    requires Unused(st.rows[..k] + st.rows[k + 1..], model)
    ensures UpdateStep(Migrations.PhoneSchema, st, ById(id), Content(model), false)
      == Step(Resolved(1), TableState(st.rows[k := Stored(id, model)], st.sequence))
  {
    var s, content := Migrations.PhoneSchema, Content(model);
    var x := st.rows[k] + content;
    MatchesById(st.rows[k], id);
    assert x == Stored(id, model);
    FillPhone(id, model);
    forall j | 0 <= j < |st.rows| && j != k ensures !Collide(s, st.rows[j], x) {
      var others := st.rows[..k] + st.rows[k + 1..];
      assert st.rows[j] == if j < k then others[j] else others[j - 1];
      DistinctUnique(s, st.rows, j, k, IdColumn);
    }
    UpdateByIdResolves(s, st, k, id, content);
  }

  /** `update(id, model)` to a model another phone has breaks the UNIQUE
      constraint: the promise never settles and the table is unchanged. */
  lemma UpdateDuplicateNeverSettles(st: TableState, k: nat, j: nat, id: int, model: string, fault: bool)
    requires Admissible(Migrations.PhoneSchema, st.rows)
    requires k < |st.rows| && j < |st.rows| && j != k && st.rows[k]["id"] == Int(id)
    requires st.rows[j]["model"] == Text(model)
    ensures UpdateStep(Migrations.PhoneSchema, st, ById(id), Content(model), fault) == Step(NeverSettles, st)
  {
    var s := Migrations.PhoneSchema;
    MatchesById(st.rows[k], id);
    assert Collide(s, st.rows[j], st.rows[k] + Content(model)) by {
      assert "model" in s.unique;
    }
    UpdateByIdClash(s, st, k, j, id, Content(model), fault);
  }

  /** `insert(model, forceRollBack)` */
  method Insert(t: Table, model: string, fault: bool) returns (r: Outcome<int>)
    requires t.Valid()
    modifies t
    ensures t.Valid()
    ensures Step(r, t.State()) == InsertSpec(t.schema, old(t.State()), model, fault)
  {
    var empty := |model| <= 0;
    var stored := t.Insert(Content(model), fault);
    r := if empty then Rejected(CouldNotInsert) else stored;
  }

  /** `remove(id, forceRollBack)`: resolves the accessor's count. */
  method Remove(t: Table, id: int, fault: bool) returns (r: Outcome<nat>)
    requires t.Valid()
    modifies t
    ensures t.Valid()
    ensures Step(r, t.State()) == DeleteStep(t.schema, old(t.State()), ById(id), fault)
  {
    r := t.Remove(id, fault);
  }

  /** `find()` */
  method Find(t: Table, fault: bool) returns (r: Outcome<seq<Row>>)
    ensures r == if fault then NeverSettles else Resolved(t.rows)
  {
    r := t.Find(fault);
  }

  /** `findOne(id)` */
  method FindOne(t: Table, id: int, fault: bool) returns (r: Outcome<seq<Row>>)
    ensures r == SelectWhere(t.schema, t.State(), ById(id), fault)
  {
    r := t.FindOne(id, fault);
  }

  /** `update(id, model, forceRollBack)`: resolves the accessor's count. */
  method Update(t: Table, id: int, model: string, fault: bool) returns (r: Outcome<nat>)
    requires t.Valid()
    modifies t
    ensures t.Valid()
    ensures Step(r, t.State()) == UpdateStep(t.schema, old(t.State()), ById(id), Content(model), fault)
  {
    r := t.Update(id, Content(model), fault);
  }

  /** `insertFile(file)`: logs the file and resolves true; it neither reads
      nor writes the store, so it takes no table. */
  method InsertFile<F>(file: F) returns (r: Outcome<bool>)
    ensures r == Resolved(true)
  {
    r := Resolved(true);
  }
}

=== FILE: schemas.dfy ===
/** The constraints a table declares (columns, NOT NULL, UNIQUE, defaults,
    an autoincrement primary key) and what it means for a set of rows to
    satisfy them. Every table of the store is described by one `Schema`, so
    the constraint set is a parameter of the model rather than hard-coded. */
module Schemas {
  import opened Values

  /** The name of the autoincrement primary key column. */
  const IdColumn := "id"

  /** `keyed` tables have an `id` column declared with `increments`, an
      INTEGER PRIMARY KEY AUTOINCREMENT, which aliases the SQLite rowid. */
  datatype Schema = Schema(
    columns: set<string>,
    keyed: bool,
    notNull: set<string>,
    unique: set<string>,
    defaults: map<string, Value>)

  predicate WellFormed(s: Schema) {
    && s.notNull <= s.columns
    && s.unique <= s.columns
    && s.defaults.Keys <= s.columns
    && (s.keyed <==> IdColumn in s.columns)
    && (s.keyed ==> IdColumn in s.notNull && IdColumn in s.unique)
  }

  /** A single row has exactly the table's columns, no NULL in a NOT NULL
      column, and an integer primary key. */
  predicate RowFits(s: Schema, r: Row) {
    && r.Keys == s.columns
    && (forall c :: c in s.notNull && c in r ==> r[c] != Null)
    && (s.keyed ==> IdColumn in r && r[IdColumn].Int?)
  }

  /** Two rows break a UNIQUE constraint: they hold the same non-NULL value
      in a unique column (SQLite lets several NULLs coexist). */
  predicate Collide(s: Schema, a: Row, b: Row) {
    exists c :: c in s.unique && c in a && c in b && a[c] != Null && a[c] == b[c]
  }

  /** The rows of a table satisfy all of its declared constraints. */
  predicate Admissible(s: Schema, rows: seq<Row>) {
    && (forall i :: 0 <= i < |rows| ==> RowFits(s, rows[i]))
    && (forall i, j :: 0 <= i < j < |rows| ==> !Collide(s, rows[i], rows[j]))
  }

  /** Appending one row to admissible rows keeps them admissible exactly when
      the row fits and clashes with no existing row. */
  lemma AppendAdmissible(s: Schema, rows: seq<Row>, x: Row)
    requires Admissible(s, rows)
    ensures Admissible(s, rows + [x]) <==> RowFits(s, x) && forall y :: y in rows ==> !Collide(s, y, x)
  {
    var all := rows + [x];
    if RowFits(s, x) && forall y :: y in rows ==> !Collide(s, y, x) {
      forall i, j | 0 <= i < j < |all| ensures !Collide(s, all[i], all[j]) {
        if j == |rows| {
          assert all[i] in rows;
        }
      }
    }
    if Admissible(s, all) {
      assert RowFits(s, all[|rows|]);
      forall y | y in rows ensures !Collide(s, y, x) {
        var i :| 0 <= i < |rows| && rows[i] == y;
        assert all[i] == y && all[|rows|] == x;
      }
    }
  }

  lemma CollideSymmetric(s: Schema, a: Row, b: Row)
    ensures Collide(s, a, b) == Collide(s, b, a)
  {
    if Collide(s, a, b) {
      var c :| c in s.unique && c in a && c in b && a[c] != Null && a[c] == b[c];
      assert b[c] != Null && b[c] == a[c];
    }
    if Collide(s, b, a) {
      var c :| c in s.unique && c in b && c in a && b[c] != Null && b[c] == a[c];
      assert a[c] != Null && a[c] == b[c];
    }
  }

  /** A row clashing with `x` clashes with any row that agrees with `x` on
      the unique columns. */
  lemma CollideAgreeing(s: Schema, y: Row, x: Row, z: Row)
    requires forall c :: c in s.unique && c in x ==> c in z && x[c] == z[c]
    ensures Collide(s, y, x) ==> Collide(s, y, z)
  {
    if Collide(s, y, x) {
      var c :| c in s.unique && c in y && c in x && y[c] != Null && y[c] == x[c];
      assert c in z && y[c] == z[c];
    }
  }

  /** Two different rows of an admissible table never share a non-NULL value
      in a unique column. */
  lemma DistinctUnique(s: Schema, rows: seq<Row>, j: nat, k: nat, c: string)
    requires Admissible(s, rows) && j < |rows| && k < |rows| && j != k
    requires c in s.unique && c in rows[j] && c in rows[k] && rows[j][c] != Null
    ensures rows[j][c] != rows[k][c]
  {
    if j < k {
      assert !Collide(s, rows[j], rows[k]);
    } else {
      assert !Collide(s, rows[k], rows[j]);
    }
  }

  /** Replacing the row at `k` by a row that fits and clashes with no other
      row keeps the rows admissible. */
  lemma ReplaceAdmissible(s: Schema, rows: seq<Row>, k: nat, x: Row)
    requires Admissible(s, rows) && k < |rows|
    requires RowFits(s, x)
    requires forall j :: 0 <= j < |rows| && j != k ==> !Collide(s, rows[j], x)
    ensures Admissible(s, rows[k := x])
  {
    var all := rows[k := x];
    forall i, j | 0 <= i < j < |all| ensures !Collide(s, all[i], all[j]) {
      if i == k {
        CollideSymmetric(s, x, rows[j]);
      } else if j != k {
        assert all[i] == rows[i] && all[j] == rows[j];
      }
    }
  }

  /** A replacement that agrees with the old row on every unique column
      clashes with no other row. */
  lemma ReplaceAgreeingAdmissible(s: Schema, rows: seq<Row>, k: nat, x: Row)
    requires Admissible(s, rows) && k < |rows|
    requires RowFits(s, x)
    requires forall c :: c in s.unique && c in x ==> c in rows[k] && x[c] == rows[k][c]
    ensures Admissible(s, rows[k := x])
  {
    forall j | 0 <= j < |rows| && j != k ensures !Collide(s, rows[j], x) {
      CollideAgreeing(s, rows[j], x, rows[k]);
      CollideSymmetric(s, rows[j], rows[k]);
    }
    ReplaceAdmissible(s, rows, k, x);
  }

  /** The row SQLite builds from an insert: the generated key in `id`, the
      supplied value in every supplied column, otherwise the column default,
      otherwise NULL. */
  function Fill(s: Schema, content: Row, id: int): (r: Row)
    ensures r.Keys == s.columns
    ensures s.keyed && IdColumn in s.columns ==> r[IdColumn] == Int(id)
    ensures forall c :: c in r && c != IdColumn && c in content ==> r[c] == content[c]
    ensures forall c :: c in r && c != IdColumn && c !in content ==> r[c] == (if c in s.defaults then s.defaults[c] else Null)
  {
    map c | c in s.columns ::
      if s.keyed && c == IdColumn then Int(id)
      else if c in content then content[c]
      else if c in s.defaults then s.defaults[c]
      else Null
  }
}

=== FILE: service.dfy ===
/** The Service entity: insert after an empty-type check, a soft-delete
    remove that reads the row, sets `deleted` and writes it back, and find,
    findOne and update through the accessor. */
module Service {
  import opened Values
  import opened Schemas
  import opened Crud
  import Migrations

  const EmptyType := "service type must not be empty"

  /** Reading `res[0].deleted = true` when `findOne` found nothing throws
      this TypeError inside `.then`; the outer `.catch` rejects with it. */
  const UndefinedRow := "TypeError: Cannot set properties of undefined (setting 'deleted')"

  /** The object handed to the accessor: `{ type, price }`. The price is
      carried through unchanged; no arithmetic is done on it. */
  function Content(kind: string, price: real): Row {
    map["type" := Text(kind), "price" := Real(price)]
  }

  /** `insert(type, price)`. An empty type rejects the promise but does not
      return, so the store insert still runs. */
  function InsertSpec(s: Schema, st: TableState, kind: string, price: real, fault: bool): (r: Step<int>)
    requires WellFormed(s) && Admissible(s, st.rows)
    ensures !r.out.NeverSettles?
    ensures r.out.Rejected? ==> r.out.reason in {EmptyType, CouldNotInsert}
    ensures |kind| == 0 ==> r.out == Rejected(EmptyType)
    ensures |kind| > 0 && r.out.Rejected? ==> r.out.reason == CouldNotInsert
    ensures r.after == InsertStep(s, st, Content(kind, price), fault).after
    ensures |kind| > 0 ==> r == InsertStep(s, st, Content(kind, price), fault)
    ensures Admissible(s, r.after.rows)
  {
    var stored := InsertStep(s, st, Content(kind, price), fault);
    if |kind| <= 0 then Step(Rejected(EmptyType), stored.after) else stored
  }

  /** The row a new service is stored as: `deleted` takes its default, false. */
  function Stored(id: int, kind: string, price: real): Row {
    map["id" := Int(id), "type" := Text(kind), "price" := Real(price), "deleted" := StoredFalse]
  }

  lemma FillService(id: int, kind: string, price: real)
    ensures Fill(Migrations.ServiceSchema, Content(kind, price), id) == Stored(id, kind, price)
    ensures RowFits(Migrations.ServiceSchema, Stored(id, kind, price))
  {
    var f := Fill(Migrations.ServiceSchema, Content(kind, price), id);
    assert f.Keys == Stored(id, kind, price).Keys;
  }

  /** No stored service has this type. */
  predicate Unused(rows: seq<Row>, kind: string) {
    forall i :: 0 <= i < |rows| ==> "type" in rows[i] ==> rows[i]["type"] != Text(kind)
  }

  lemma StoreAccepts(st: TableState, kind: string, price: real)
    requires Admissible(Migrations.ServiceSchema, st.rows) && Unused(st.rows, kind)
    ensures InsertStep(Migrations.ServiceSchema, st, Content(kind, price), false).out == Resolved(NextId(st))
  {
    var s, id := Migrations.ServiceSchema, NextId(st);
    FillService(id, kind, price);
    forall i | 0 <= i < |st.rows| ensures !Collide(s, st.rows[i], Stored(id, kind, price)) {
      assert IdOf(st.rows[i]) < id;
    }
    InsertResolves(s, st, Content(kind, price));
  }

  /** A new service of an unused, non-empty type is stored with its type and
      price and `deleted` = 0, and `findOne` returns it. */
  lemma InsertThenFindOne(st: TableState, kind: string, price: real)
    requires Admissible(Migrations.ServiceSchema, st.rows) && Unused(st.rows, kind)
    requires |kind| > 0
    ensures var step := InsertSpec(Migrations.ServiceSchema, st, kind, price, false);
      && step.out == Resolved(NextId(st))
      && SelectWhere(Migrations.ServiceSchema, step.after, ById(NextId(st)), false)
         == Resolved([Stored(NextId(st), kind, price)])
  {
    StoreAccepts(st, kind, price);
    FillService(NextId(st), kind, price);
    FindOneAfterInsert(Migrations.ServiceSchema, st, Content(kind, price), false);
  }

  /** No early return: an empty type is rejected with its message, yet when no
      service has the empty type the row is stored all the same. */
  lemma EmptyTypeYetStored(st: TableState, price: real)
    requires Admissible(Migrations.ServiceSchema, st.rows) && Unused(st.rows, "")
    ensures var step := InsertSpec(Migrations.ServiceSchema, st, "", price, false);
      && step.out == Rejected(EmptyType)
      && step.after.rows == st.rows + [Stored(NextId(st), "", price)]
  {
    StoreAccepts(st, "", price);
    FillService(NextId(st), "", price);
  }

  /** A type that already exists is refused by the store: the table is
      unchanged and a non-empty type rejects with "could not insert". */
  lemma DuplicateType(st: TableState, k: nat, kind: string, price: real, fault: bool)
    requires Admissible(Migrations.ServiceSchema, st.rows) && k < |st.rows|
    requires st.rows[k]["type"] == Text(kind)
    ensures var step := InsertSpec(Migrations.ServiceSchema, st, kind, price, fault);
      && step.after == st
      && (|kind| > 0 ==> step.out == Rejected(CouldNotInsert))
  {
    var s, row := Migrations.ServiceSchema, Stored(NextId(st), kind, price);
    FillService(NextId(st), kind, price);
    assert st.rows[k] in st.rows;
    assert Collide(s, st.rows[k], row) by {
      assert "type" in s.unique && row["type"] == Text(kind);
    }
    AppendAdmissible(s, st.rows, row);
  }

  /** `remove(id)`: `findOne`, then `update` with the found row and
      `deleted` set to true, then resolve true. A store failure in either
      step never settles; a missing row rejects with the TypeError. */
  function RemoveSpec(s: Schema, st: TableState, id: int, readFault: bool, writeFault: bool): (r: Step<bool>)
    requires Admissible(s, st.rows)
    ensures r.out.Rejected? ==> r.out.reason == UndefinedRow && r.after == st
    ensures readFault ==> r == Step(NeverSettles, st)
    ensures r.out.Resolved? ==> r.out.value && |r.after.rows| == |st.rows|
    ensures Admissible(s, r.after.rows)
  {
    match SelectWhere(s, st, ById(id), readFault)
    case NeverSettles => Step(NeverSettles, st)
    case Rejected(m) => Step(Rejected(m), st)
    case Resolved(found) =>
      if |found| == 0 then Step(Rejected(UndefinedRow), st)
      else Acknowledge(UpdateStep(s, st, ById(id), found[0][("deleted") := StoredTrue], writeFault))
  }

  /** Writing back a service row with `deleted` set replaces just that row
      and resolves 1: the row keeps its unique id and type. */
  lemma WriteBackDeleted(st: TableState, k: nat, id: int)
    requires Admissible(Migrations.ServiceSchema, st.rows)
    requires k < |st.rows| && st.rows[k]["id"] == Int(id)
    ensures UpdateStep(Migrations.ServiceSchema, st, ById(id), st.rows[k]["deleted" := StoredTrue], false)
      == Step(Resolved(1), TableState(st.rows[k := st.rows[k]["deleted" := StoredTrue]], st.sequence))
  {
    var s, x := Migrations.ServiceSchema, st.rows[k]["deleted" := StoredTrue];
    MatchesById(st.rows[k], id);
    assert st.rows[k] + x == x;
    assert st.rows[k] in st.rows;
    forall j | 0 <= j < |st.rows| && j != k ensures !Collide(s, st.rows[j], x) {
      CollideAgreeing(s, st.rows[j], x, st.rows[k]);
      CollideSymmetric(s, st.rows[j], st.rows[k]);
    }
    UpdateByIdResolves(s, st, k, id, x);
  }

  /** Soft delete: the row stays, with the same id, type and price, and
      `deleted` set to 1; every other row is unchanged. */
  lemma SoftDelete(st: TableState, k: nat, id: int)
    requires Admissible(Migrations.ServiceSchema, st.rows)
    requires k < |st.rows| && st.rows[k]["id"] == Int(id)
    ensures RemoveSpec(Migrations.ServiceSchema, st, id, false, false)
      == Step(Resolved(true), TableState(st.rows[k := st.rows[k]["deleted" := StoredTrue]], st.sequence))
  {
    var s, x := Migrations.ServiceSchema, st.rows[k]["deleted" := StoredTrue];
    MatchesById(st.rows[k], id);
    OverwriteById(s, st.rows, k, id, x);
    assert SelectWhere(s, st, ById(id), false) == Resolved([st.rows[k]]) by {
      assert KnownFields(s, ById(id));
    }
    WriteBackDeleted(st, k, id);
  }


  /** `remove` of an id with no row rejects with the TypeError and writes
      nothing. */
  lemma RemoveMissing(s: Schema, st: TableState, id: int, writeFault: bool)
    requires WellFormed(s) && s.keyed && Admissible(s, st.rows)
    requires !HasId(st.rows, id)
    ensures RemoveSpec(s, st, id, false, writeFault) == Step(Rejected(UndefinedRow), st)
  {
    SelectById(s, st.rows, id);
    assert KnownFields(s, ById(id));
  }

  /** `update(id, type, price)` writes only type and price and leaves
      `deleted` as it was; it resolves true. */
  lemma UpdateKeepsDeleted(st: TableState, k: nat, id: int, kind: string, price: real)
    requires Admissible(Migrations.ServiceSchema, st.rows)
    requires k < |st.rows| && st.rows[k]["id"] == Int(id)
    requires Unused(st.rows[..k] + st.rows[k + 1..], kind)
    ensures var step := Acknowledge(UpdateStep(Migrations.ServiceSchema, st, ById(id), Content(kind, price), false));
      && step.out == Resolved(true)
      && step.after.rows == st.rows[k := Stored(id, kind, price)["deleted" := st.rows[k]["deleted"]]]
  {
    var s, content := Migrations.ServiceSchema, Content(kind, price);
    var x := st.rows[k] + content;
    MatchesById(st.rows[k], id);
    assert x == Stored(id, kind, price)["deleted" := st.rows[k]["deleted"]];
    forall j | 0 <= j < |st.rows| && j != k ensures !Collide(s, st.rows[j], x) {
      var others := st.rows[..k] + st.rows[k + 1..];
      assert st.rows[j] == if j < k then others[j] else others[j - 1];
      DistinctUnique(s, st.rows, j, k, IdColumn);
    }
    assert content != map[] && content.Keys <= s.columns by {
      assert "type" in content;
    }
    assert RowFits(s, x) by {
      assert st.rows[k] in st.rows;
      assert x.Keys == st.rows[k].Keys;
    }
    UpdateByIdResolves(s, st, k, id, content);
  }

  /** `insert(type, price)` */
  method Insert(t: Table, kind: string, price: real, fault: bool) returns (r: Outcome<int>)
    requires t.Valid()
    modifies t
    ensures t.Valid()
    ensures Step(r, t.State()) == InsertSpec(t.schema, old(t.State()), kind, price, fault)
  {
    var empty := |kind| <= 0;
    var stored := t.Insert(Content(kind, price), fault);
    r := if empty then Rejected(EmptyType) else stored;
  }

  /** `remove(id)`: the soft delete. */
  method Remove(t: Table, id: int, readFault: bool, writeFault: bool) returns (r: Outcome<bool>)
    requires t.Valid()
    modifies t
    ensures t.Valid()
    ensures Step(r, t.State()) == RemoveSpec(t.schema, old(t.State()), id, readFault, writeFault)
  {
    var found := t.FindOne(id, readFault);
    match found {
      case NeverSettles =>
        r := NeverSettles;
      case Rejected(m) =>
        r := Rejected(m);
      case Resolved(res) =>
        if |res| == 0 {
          r := Rejected(UndefinedRow);
        } else {
          var n := t.Update(id, res[0]["deleted" := StoredTrue], writeFault);
          r := Acknowledge(Step(n, t.State())).out;
        }
    }
  }

  /** `find()` */
  method Find(t: Table, fault: bool) returns (r: Outcome<seq<Row>>)
    ensures r == if fault then NeverSettles else Resolved(t.rows)
  {
    r := t.Find(fault);
  }

  /** `findOne(id)` */
  method FindOne(t: Table, id: int, fault: bool) returns (r: Outcome<seq<Row>>)
    ensures r == SelectWhere(t.schema, t.State(), ById(id), fault)
  {
    r := t.FindOne(id, fault);
  }

  /** `update(id, type, price)`: resolves true once the accessor resolves. */
  method Update(t: Table, id: int, kind: string, price: real, fault: bool) returns (r: Outcome<bool>)
    requires t.Valid()
    modifies t
    ensures t.Valid()
    ensures Step(r, t.State()) == Acknowledge(UpdateStep(t.schema, old(t.State()), ById(id), Content(kind, price), fault))
  {
    var n := t.Update(id, Content(kind, price), fault);
    r := Acknowledge(Step(n, t.State())).out;
  }
}

=== FILE: service_order.dfy ===
/** The ServiceOrder entity: every operation hands its arguments to the
    accessor with no check of its own; remove and update resolve true. */
module ServiceOrder {
  import opened Values
  import opened Schemas
  import opened Crud
  import Migrations

  /** The object handed to the accessor: `{ idClient, idPhone }`. */
  function Content(idClient: int, idPhone: int): Row {
    map["idClient" := Int(idClient), "idPhone" := Int(idPhone)]
  }

  /** The two ServiceOrder tables the code meets: the one the migration
      creates and the three-column one its tests expect. */
  predicate OrderSchema(s: Schema) {
    s == Migrations.ServiceOrderSchema || s == Migrations.TestedServiceOrderSchema
  }

  /** The migration declares `beginDate` NOT NULL with no default and
      `insert` never supplies it, so against the migrated table every insert
      is refused: "could not insert", and the table is unchanged. */
  lemma InsertAlwaysRefused(st: TableState, idClient: int, idPhone: int, fault: bool)
    requires Admissible(Migrations.ServiceOrderSchema, st.rows)
    ensures InsertStep(Migrations.ServiceOrderSchema, st, Content(idClient, idPhone), fault)
      == Step(Rejected(CouldNotInsert), st)
  {
    var s := Migrations.ServiceOrderSchema;
    var row := Fill(s, Content(idClient, idPhone), NextId(st));
    assert "beginDate" in row && "beginDate" !in s.defaults;
    assert !RowFits(s, row);
    AppendAdmissible(s, st.rows, row);
  }

  /** The row a new service order is stored as in the three-column table. */
  function Stored(id: int, idClient: int, idPhone: int): Row {
    map["id" := Int(id), "idClient" := Int(idClient), "idPhone" := Int(idPhone)]
  }

  /** Against the three-column table every insert is accepted, whatever the
      client and phone ids: nothing checks that they exist. `findOne` then
      returns the new order. */
  lemma InsertThenFindOne(st: TableState, idClient: int, idPhone: int)
    requires Admissible(Migrations.TestedServiceOrderSchema, st.rows)
    ensures var step := InsertStep(Migrations.TestedServiceOrderSchema, st, Content(idClient, idPhone), false);
      && step.out == Resolved(NextId(st))
      && SelectWhere(Migrations.TestedServiceOrderSchema, step.after, ById(NextId(st)), false)
         == Resolved([Stored(NextId(st), idClient, idPhone)])
  {
    var s, id := Migrations.TestedServiceOrderSchema, NextId(st);
    var content := Content(idClient, idPhone);
    assert Fill(s, content, id) == Stored(id, idClient, idPhone) by {
      assert Fill(s, content, id).Keys == Stored(id, idClient, idPhone).Keys;
    }
    forall i | 0 <= i < |st.rows| ensures !Collide(s, st.rows[i], Stored(id, idClient, idPhone)) {
      assert IdOf(st.rows[i]) < id;
    }
    InsertResolves(s, st, content);
    FindOneAfterInsert(s, st, content, false);
  }

  /** `remove(id)` is a hard delete: the order with the id leaves the table,
      which loses exactly one row, and the promise resolves true. */
  lemma RemoveHardDeletes(s: Schema, st: TableState, k: nat, id: int)
    requires OrderSchema(s) && Admissible(s, st.rows)
    requires k < |st.rows| && st.rows[k]["id"] == Int(id)
    ensures var step := Acknowledge(DeleteStep(s, st, ById(id), false));
      && step.out == Resolved(true)
      && st.rows[k] !in step.after.rows
      && |step.after.rows| == |st.rows| - 1
  {
    assert HasId(st.rows, id);
    RemoveCount(s, st, id);
    MatchesById(st.rows[k], id);
  }

  /** `update(id, idClient, idPhone)` rewrites the client and phone ids of
      that order, keeps its other columns, touches no other order and
      resolves true; nothing checks that the new ids exist. */
  lemma UpdateSetsClientAndPhone(s: Schema, st: TableState, k: nat, id: int, idClient: int, idPhone: int)
    requires OrderSchema(s) && Admissible(s, st.rows)
    requires k < |st.rows| && st.rows[k]["id"] == Int(id)
    ensures Acknowledge(UpdateStep(s, st, ById(id), Content(idClient, idPhone), false))
      == Step(Resolved(true),
              TableState(st.rows[k := st.rows[k]["idClient" := Int(idClient)]["idPhone" := Int(idPhone)]], st.sequence))
  {
    var content := Content(idClient, idPhone);
    var x := st.rows[k] + content;
    MatchesById(st.rows[k], id);
    assert x == st.rows[k]["idClient" := Int(idClient)]["idPhone" := Int(idPhone)];
    assert RowFits(s, x) by {
      assert st.rows[k] in st.rows;
    }
    forall j | 0 <= j < |st.rows| && j != k ensures !Collide(s, st.rows[j], x) {
      DistinctUnique(s, st.rows, j, k, IdColumn);
    }
    UpdateByIdResolves(s, st, k, id, content);
  }

  /** `insert(idClient, idPhone)`: adopts the accessor's promise. */
  method Insert(t: Table, idClient: int, idPhone: int, fault: bool) returns (r: Outcome<int>)
    requires t.Valid()
    modifies t
    ensures t.Valid()
    ensures Step(r, t.State()) == InsertStep(t.schema, old(t.State()), Content(idClient, idPhone), fault)
  {
    r := t.Insert(Content(idClient, idPhone), fault);
  }

  /** `remove(id)`: resolves true once the accessor resolves. */
  method Remove(t: Table, id: int, fault: bool) returns (r: Outcome<bool>)
    requires t.Valid()
    modifies t
    ensures t.Valid()
    ensures Step(r, t.State()) == Acknowledge(DeleteStep(t.schema, old(t.State()), ById(id), fault))
  {
    var n := t.Remove(id, fault);
    r := Acknowledge(Step(n, t.State())).out;
  }

  /** `find()` */
  method Find(t: Table, fault: bool) returns (r: Outcome<seq<Row>>)
    ensures r == if fault then NeverSettles else Resolved(t.rows)
  {
    r := t.Find(fault);
  }

  /** `findOne(id)` */
  method FindOne(t: Table, id: int, fault: bool) returns (r: Outcome<seq<Row>>)
    ensures r == SelectWhere(t.schema, t.State(), ById(id), fault)
  {
    r := t.FindOne(id, fault);
  }

  /** `update(id, idClient, idPhone)`: resolves true once the accessor
      resolves. */
  method Update(t: Table, id: int, idClient: int, idPhone: int, fault: bool) returns (r: Outcome<bool>)
    requires t.Valid()
    modifies t
    ensures t.Valid()
    ensures Step(r, t.State()) == Acknowledge(UpdateStep(t.schema, old(t.State()), ById(id), Content(idClient, idPhone), fault))
  {
    var n := t.Update(id, Content(idClient, idPhone), fault);
    r := Acknowledge(Step(n, t.State())).out;
  }
}

=== FILE: service_order_has_service.dfy ===
/** The ServiceOrderHasService join table: links between a service order
    and a service, addressed by the pair of ids. Every operation throws
    inside `.catch` on failure, so a failing call never settles. */
module ServiceOrderHasService {
  import opened Values
  import opened Schemas
  import opened Crud
  import Migrations

  const OrderField := "idServiceOrder"
  const ServiceField := "idService"

  /** The link row, which is also the object handed to the accessor. */
  function Link(idServiceOrder: int, idService: int): Row {
    map[OrderField := Int(idServiceOrder), ServiceField := Int(idService)]
  }

  /** `where("idServiceOrder", ...).andWhere("idService", ...)` */
  function ByLink(idServiceOrder: int, idService: int): seq<Cond> {
    ByPair(OrderField, idServiceOrder, ServiceField, idService)
  }

  /** `.catch((err) => { throw err; })` inside a promise executor: the
      rejection is swallowed and the promise stays pending. */
  function Rethrown<T>(step: Step<T>): (r: Step<T>)
    ensures r.after == step.after
    ensures !r.out.Rejected?
    ensures r.out.NeverSettles? <==> !step.out.Resolved?
    ensures step.out.Resolved? ==> r.out == step.out
  {
    if step.out.Rejected? then Step(NeverSettles, step.after) else step
  }

  /** `insert(idServiceOrder, idService)`: resolves the rowid; a refused
      insert never settles. */
  function InsertSpec(s: Schema, st: TableState, idServiceOrder: int, idService: int, fault: bool): (r: Step<int>)
    requires WellFormed(s) && Admissible(s, st.rows)
    ensures !r.out.Rejected?
    ensures fault ==> r == Step(NeverSettles, st)
    ensures Admissible(s, r.after.rows)
  {
    Rethrown(InsertStep(s, st, Link(idServiceOrder, idService), fault))
  }

  /** In the join table a row matches the pair filter exactly when it is
      that link. */
  lemma MatchesLink(x: Row, idServiceOrder: int, idService: int)
    requires RowFits(Migrations.ServiceOrderHasServiceSchema, x)
    ensures Matches(x, ByLink(idServiceOrder, idService)) <==> x == Link(idServiceOrder, idService)
  {
    var l := Link(idServiceOrder, idService);
    if Matches(x, ByLink(idServiceOrder, idService)) {
      assert ByLink(idServiceOrder, idService)[0].field == OrderField;
      assert ByLink(idServiceOrder, idService)[1].field == ServiceField;
      assert x.Keys == l.Keys;
    }
  }

  /** Selecting from rows with one more row at the end. */
  lemma SelectAppend(rows: seq<Row>, x: Row, conds: seq<Cond>)
    ensures Select(rows + [x], conds) == Select(rows, conds) + (if Matches(x, conds) then [x] else [])
  {
    assert (rows + [x])[..|rows|] == rows;
  }

  /** A link is always stored, with no check that the order or the service
      exists: the insert resolves the new rowid, appends the link, and
      `findOne` then finds it. */
  lemma InsertThenFindOne(st: TableState, idServiceOrder: int, idService: int)
    requires Admissible(Migrations.ServiceOrderHasServiceSchema, st.rows)
    ensures var step := InsertSpec(Migrations.ServiceOrderHasServiceSchema, st, idServiceOrder, idService, false);
      && step.out == Resolved(NextId(st))
      && step.after.rows == st.rows + [Link(idServiceOrder, idService)]
      && var found := SelectWhere(Migrations.ServiceOrderHasServiceSchema, step.after, ByLink(idServiceOrder, idService), false);
         found.Resolved? && Link(idServiceOrder, idService) in found.value
  {
    var s, l := Migrations.ServiceOrderHasServiceSchema, Link(idServiceOrder, idService);
    assert Fill(s, l, NextId(st)) == l by {
      assert Fill(s, l, NextId(st)).Keys == l.Keys;
    }
    InsertResolves(s, st, l);
    assert KnownFields(s, ByLink(idServiceOrder, idService));
    MatchesLink(l, idServiceOrder, idService);
  }

  /** The pair is not a key: inserting the same link twice stores it twice. */
  lemma DuplicateLinks(st: TableState, idServiceOrder: int, idService: int)
    requires Admissible(Migrations.ServiceOrderHasServiceSchema, st.rows)
    ensures var once := InsertSpec(Migrations.ServiceOrderHasServiceSchema, st, idServiceOrder, idService, false);
      var twice := InsertSpec(Migrations.ServiceOrderHasServiceSchema, once.after, idServiceOrder, idService, false);
      && once.out.Resolved? && twice.out.Resolved?
      && |Select(twice.after.rows, ByLink(idServiceOrder, idService))|
         == |Select(st.rows, ByLink(idServiceOrder, idService))| + 2
  {
    var s, l, conds := Migrations.ServiceOrderHasServiceSchema, Link(idServiceOrder, idService), ByLink(idServiceOrder, idService);
    InsertThenFindOne(st, idServiceOrder, idService);
    var once := InsertSpec(s, st, idServiceOrder, idService, false);
    InsertThenFindOne(once.after, idServiceOrder, idService);
    MatchesLink(l, idServiceOrder, idService);
    SelectAppend(st.rows, l, conds);
    SelectAppend(once.after.rows, l, conds);
  }

  /** `remove(idServiceOrder, idService)` deletes every copy of the link and
      nothing else, and resolves true. */
  lemma RemoveAllCopies(st: TableState, idServiceOrder: int, idService: int)
    requires Admissible(Migrations.ServiceOrderHasServiceSchema, st.rows)
    ensures var step := Acknowledge(DeleteStep(Migrations.ServiceOrderHasServiceSchema, st, ByLink(idServiceOrder, idService), false));
      && step.out == Resolved(true)
      && (forall x :: multiset(step.after.rows)[x] == if x == Link(idServiceOrder, idService) then 0 else multiset(st.rows)[x])
      && SelectWhere(Migrations.ServiceOrderHasServiceSchema, step.after, ByLink(idServiceOrder, idService), false) == Resolved([])
  {
    var s, conds := Migrations.ServiceOrderHasServiceSchema, ByLink(idServiceOrder, idService);
    assert KnownFields(s, conds);
    forall x | x in st.rows ensures Matches(x, conds) <==> x == Link(idServiceOrder, idService) {
      var i :| 0 <= i < |st.rows| && st.rows[i] == x;
      MatchesLink(x, idServiceOrder, idService);
    }
    var step := DeleteStep(s, st, conds, false);
    forall x ensures multiset(step.after.rows)[x] == if x == Link(idServiceOrder, idService) then 0 else multiset(st.rows)[x] {
      assert multiset(step.after.rows)[x] + multiset(Select(st.rows, conds))[x] == multiset(st.rows)[x];
      SelectCount(st.rows, conds, x);
    }
    NoneSelected(Select(step.after.rows, conds));
  }

  /** Overwriting with a link turns each copy of the old link into the new
      one; the join table admits the result, as it has no unique column. */
  lemma OverwriteLinks(rows: seq<Row>, oldIdServiceOrder: int, oldIdService: int, idServiceOrder: int, idService: int)
    requires Admissible(Migrations.ServiceOrderHasServiceSchema, rows)
    ensures var r := Overwrite(rows, ByLink(oldIdServiceOrder, oldIdService), Link(idServiceOrder, idService));
      && Admissible(Migrations.ServiceOrderHasServiceSchema, r)
      && forall i :: 0 <= i < |rows| ==>
           r[i] == if rows[i] == Link(oldIdServiceOrder, oldIdService) then Link(idServiceOrder, idService) else rows[i]
  {
    var s, l := Migrations.ServiceOrderHasServiceSchema, Link(idServiceOrder, idService);
    var r := Overwrite(rows, ByLink(oldIdServiceOrder, oldIdService), l);
    forall i | 0 <= i < |rows|
      ensures r[i] == if rows[i] == Link(oldIdServiceOrder, oldIdService) then l else rows[i]
    {
      MatchesLink(rows[i], oldIdServiceOrder, oldIdService);
      assert (rows[i] + l).Keys == l.Keys;
    }
    assert forall i :: 0 <= i < |r| ==> RowFits(s, r[i]);
    assert forall i, j :: 0 <= i < j < |r| ==> !Collide(s, r[i], r[j]);
  }

  /** `update(oldIdServiceOrder, oldIdService, idServiceOrder, idService)`
      turns every copy of the old link into the new one, leaves every other
      row where it is, and resolves true. */
  lemma UpdateRelinks(st: TableState, oldIdServiceOrder: int, oldIdService: int, idServiceOrder: int, idService: int)
    requires Admissible(Migrations.ServiceOrderHasServiceSchema, st.rows)
    ensures var step := Acknowledge(UpdateStep(Migrations.ServiceOrderHasServiceSchema, st,
                                               ByLink(oldIdServiceOrder, oldIdService), Link(idServiceOrder, idService), false));
      && step.out == Resolved(true)
      && step.after.sequence == st.sequence
      && |step.after.rows| == |st.rows|
      && forall i :: 0 <= i < |st.rows| ==>
           step.after.rows[i] == if st.rows[i] == Link(oldIdServiceOrder, oldIdService) then Link(idServiceOrder, idService) else st.rows[i]
  {
    OverwriteLinks(st.rows, oldIdServiceOrder, oldIdService, idServiceOrder, idService);
    assert KnownFields(Migrations.ServiceOrderHasServiceSchema, ByLink(oldIdServiceOrder, oldIdService));
    assert OrderField in Link(idServiceOrder, idService);
  }

  /** `insert(idServiceOrder, idService)` */
  method Insert(t: Table, idServiceOrder: int, idService: int, fault: bool) returns (r: Outcome<int>)
    requires t.Valid()
    modifies t
    ensures t.Valid()
    ensures Step(r, t.State()) == InsertSpec(t.schema, old(t.State()), idServiceOrder, idService, fault)
  {
    var stored := t.Insert(Link(idServiceOrder, idService), fault);
    r := Rethrown(Step(stored, t.State())).out;
  }

  /** `remove(idServiceOrder, idService)`: resolves true once the accessor
      resolves. */
  method Remove(t: Table, idServiceOrder: int, idService: int, fault: bool) returns (r: Outcome<bool>)
    requires t.Valid()
    modifies t
    ensures t.Valid()
    ensures Step(r, t.State()) == Acknowledge(DeleteStep(t.schema, old(t.State()), ByLink(idServiceOrder, idService), fault))
  {
    var n := t.RemoveNoPrimary(idServiceOrder, idService, OrderField, ServiceField, fault);
    r := Acknowledge(Step(n, t.State())).out;
  }

  /** `find()` */
  method Find(t: Table, fault: bool) returns (r: Outcome<seq<Row>>)
    ensures r == if fault then NeverSettles else Resolved(t.rows)
  {
    r := t.Find(fault);
  }

  /** `findOne(idServiceOrder, idService)` */
  method FindOne(t: Table, idServiceOrder: int, idService: int, fault: bool) returns (r: Outcome<seq<Row>>)
    ensures r == SelectWhere(t.schema, t.State(), ByLink(idServiceOrder, idService), fault)
  {
    r := t.FindOneNoPrimary(idServiceOrder, idService, OrderField, ServiceField, fault);
  }

  /** `update(oldIdServiceOrder, oldIdService, idServiceOrder, idService)`:
      resolves true once the accessor resolves. */
  method Update(t: Table, oldIdServiceOrder: int, oldIdService: int, idServiceOrder: int, idService: int, fault: bool)
    returns (r: Outcome<bool>)
    requires t.Valid()
    modifies t
    ensures t.Valid()
    ensures Step(r, t.State())
      == Acknowledge(UpdateStep(t.schema, old(t.State()), ByLink(oldIdServiceOrder, oldIdService), Link(idServiceOrder, idService), fault))
  {
    var n := t.UpdateNoPrimary(oldIdServiceOrder, oldIdService, OrderField, ServiceField, Link(idServiceOrder, idService), fault);
    r := Acknowledge(Step(n, t.State())).out;
  }
}

=== FILE: values.dfy ===
/** Values as the relational store holds them, and the ways a promise of the
    system can end. */
module Values {

  /** A column value. SQLite has no boolean type: `true` and `false` are
      stored as the integers 1 and 0. */
  datatype Value = Null | Int(n: int) | Text(s: string) | Real(r: real)

  /** A row: column name to value. */
  type Row = map<string, Value>

  const StoredFalse: Value := Int(0)
  const StoredTrue: Value := Int(1)

  datatype Option<+T> = None | Some(value: T)

  /** How a promise returned by the system ends: resolved with a value,
      rejected with a reason, or never settled (a `.catch` handler that
      throws instead of rejecting leaves the outer promise pending). */
  datatype Outcome<+T> = Resolved(value: T) | Rejected(reason: string) | NeverSettles
}
